=== FILE: README.md ===
# barbarian-cli, modelled in Dafny

`barbarian` is a small command-line tool that publishes conan recipes through
a git branch instead of a conan server:

- `barbarian export PATH REFERENCE` exports a recipe into a conan cache
  private to the repository (`ROOT/.conan`). ROOT is the recipe directory, or
  its nearest ancestor, that holds `.git`; `upload` searches the same way from
  the working directory.
- `barbarian upload REFERENCE` copies the exported recipe into a revision
  directory of the `barbarian` branch, checked out at
  `ROOT/.barbarian_upload`. There it writes the v1 `snapshot.json`, the v2
  `files.json` and the per-version `latest.json`, then commits.
- A conan `post_export` hook trims `conandata.yml` down to the exported
  version.
- The older entry point `barbarians/barbarian.py` has an `export` that also
  writes the snapshot into the cache.

The model covers the deterministic core that decides what is written and
where:

- parsing the `name/version@user/channel` reference;
- the cache and publish layout;
- the set-once cached state of the `Barbarian` object, including its upward
  search for `.git`;
- the upload records and the commit message;
- `have_branch` and the `.gitignore` tweak;
- the conandata filter.

| file | module | what it holds |
|---|---|---|
| `common.dfy` | `Common` | `Option`, `Result`, the error cases (each an exception the source raises, except `NoRepositoryRoot`, reported where the source loops for ever), `Outcome` |
| `pystr.dfy` | `PyStr` | Python's `str.split`, `split(c, 1)`, `partition`, `strip(chars)` and `in`, with their algebra |
| `posixpath.dfy` | `PosixPath` | `os.path.join` (an absolute component discards what precedes it, an empty one leaves a trailing '/') and `os.path.dirname` |
| `reference.dfy` | `Reference` | name/version override and user/channel parsing |
| `layout.dfy` | `Layout` | data, export, publish and revision directories |
| `gitrepo.dfy` | `GitRepo` | the `.git` ancestor search, `have_branch`, the `.gitignore` tweak |
| `state.dfy` | `State` | each property setter as a function on the nine backing fields, and the coordinates a whole `export` or `upload` settles on |
| `records.dfy` | `Records` | artifacts, `snapshot.json`, `files.json`, `latest.json`, the commit message, and the publish steps of `command_upload` |
| `tool.dfy` | `Tool` | the `Barbarian` class: nine mutable fields, a setter method per property proved equal to its `State` function, `command_export` and `command_upload` |
| `legacy.dfy` | `Legacy` | `command_export` of the older entry point |
| `hook.dfy` | `CleanConandata` | the `post_export` hook: a loop over sections, proved against a map comprehension |

Effects on the outside world are values:

- Removing, creating, copying and writing files, `conan export` and the
  commit are `Action`s, listed in the order the tool takes them.
- An exception is `Fail(error)`.
- What the tool reads is an input:
  - the directories holding `.git`;
  - the working directory;
  - what `conan inspect` reports;
  - the revision in each `metadata.json`;
  - the contents of each existing directory;
  - the current `.gitignore`;
  - the clock.
- MD5 and the gzipped tar of one file are function parameters.

## Model

| member | source | states |
|---|---|---|
| Reference.NameVersionParts | src/barbarians/barbarian.py:130 | the text before the first '@' split on '/' always has at least one component, and no component contains '/' |
| Reference.ResolveNameVersion | src/barbarians/barbarian.py:130-147 | the override fails exactly when nothing was inspected and the reference does not have two components before '@'; the failure is the unbound-local error; without an inspection the resolved name and version are '/'-free components of the reference |
| Reference.FullFormOverrides | src/barbarians/barbarian.py:144-146 | `name/version@…` yields exactly that name and version, whatever was inspected |
| Reference.SingleFormOverridesVersion | src/barbarians/barbarian.py:142-143 | `version@…` replaces only the version and keeps the inspected name; with nothing inspected the name is unbound and the setter raises |
| Reference.LongFormKeepsInspected | src/barbarians/barbarian.py:141-147 | three or more components before '@' leave the inspected name and version, or leave both unbound |
| Reference.ParseUserChannel | src/barbarians/barbarian.py:180-185 | fails exactly when there is no '@'; otherwise user and channel are non-empty and free of '/' |
| Reference.UserChannelComponents | src/barbarians/barbarian.py:180-185 | the user is the first '/'-component after the first '@', the channel the second, an empty one becomes "_", and extra components are ignored |
| Reference.UserOnly | src/barbarians/barbarian.py:183-185 | with one component after '@', the channel defaults to "_" |
| Reference.ParseRender | src/barbarians/barbarian.py:130-185 | parsing `name/version@user/channel` gives back the name, version, user and channel it was built from |
| Layout.DataDir | src/barbarians/barbarian.py:165-166 | the data directory is never empty |
| Layout.ExportDir | src/barbarians/barbarian.py:202-203 | the export directory of a non-empty data directory is never empty |
| Layout.PublishDir | src/barbarians/barbarian.py:220-223 | the publish directory is never empty |
| Layout.RevisionDir | src/barbarians/barbarian.py:257-258 | the revision directory of a non-empty publish directory is never empty |
| Layout.ExportDirLayout | src/barbarians/barbarian.py:202-203 | with clean components, the export directory is `root/.conan/data/name/version/user/channel` |
| Layout.PublishDirLayout | src/barbarians/barbarian.py:220-223 | with clean components, the publish directory is `root/.barbarian_upload/name/version`, the revision directory is that plus `/revision`, and `latest.json` sits in the publish directory |
| Layout.RevisionBesideLatest | src/barbarians/barbarian.py:365 | a revision directory and `latest.json` have the same parent, the version's publish directory |
| Layout.ExportDirUnderDataDir | src/barbarians/barbarian.py:202-203 | the export directory starts with the data directory, so removing the data directory removes the old export |
| Layout.EmptyVersionLeavesNoLevel | src/barbarians/barbarian.py:165-166 | an empty version (reference `@u/c`) leaves a trailing '/' instead of a version level, and user and channel then follow directly |
| PosixPath.Join | src/barbarians/barbarian.py:165-166 | an absolute second component replaces the first; otherwise the result starts with the first and ends with the second, with one '/' between them when the first is non-empty and has no trailing '/' |
| PosixPath.JoinName | src/barbarians/barbarian.py:165-166 | joining a clean name onto a path without trailing '/' inserts exactly one '/' |
| PosixPath.Dirname | src/barbarians/barbarian.py:99 | `dirname` is a prefix of the path, equals it exactly when the path is all slashes, and keeps an absolute path absolute |
| PosixPath.DirnameOfJoin | src/barbarians/hooks/barbarian_clean_conandata_yml.py:15-16 | the parent of a base path joined with a clean name is that base path |
| PyStr.SplitFirst | src/barbarians/barbarian.py:130 | `split(c, 1)` gives one piece, the whole text, exactly when `c` is absent, and otherwise the text before the first `c` and the rest |
| PyStr.Split | src/barbarians/barbarian.py:130 | `split(c)` never returns an empty list, and no piece contains `c` |
| PyStr.JoinSplit | src/barbarians/barbarian.py:130 | joining the pieces of `split(c)` with `c` gives the text back |
| PyStr.SplitJoin | src/barbarians/barbarian.py:130 | splitting a join of `c`-free pieces gives the pieces back |
| PyStr.Find | src/barbarians/barbarian.py:307 | the index found is the first occurrence, and none means no occurrence at all |
| PyStr.Partition | barbarians/barbarian.py:50 | the three parts make up the text; the first holds no occurrence of the separator; the second is the separator exactly when it occurs, and otherwise the whole text is the first part |
| PyStr.Strip | src/barbarians/barbarian.py:265 | the stripped text is no longer than the input and neither starts nor ends with a stripped character |
| PyStr.StripPadded | src/barbarians/barbarian.py:265 | stripping a core padded on both sides by stripped characters gives the core back |
| GitRepo.Parent | src/barbarians/barbarian.py:99 | `dirname` never lengthens a path, shortens it unless the path is its own parent, and keeps an absolute path absolute |
| GitRepo.RepoRoot | src/barbarians/barbarian.py:97-100 | a found root holds `.git`, and a search from an absolute directory finds an absolute root |
| GitRepo.RepoRootNearest | src/barbarians/barbarian.py:97-100 | a found root is the nearest ancestor, the start included, that holds `.git`: every nearer ancestor lacks it |
| GitRepo.RepoRootAbsent | src/barbarians/barbarian.py:97-100 | when the search finds nothing, no ancestor holds `.git`, so the source's loop condition stays true for ever |
| GitRepo.AncestorOfFixpoint | src/barbarians/barbarian.py:98-99 | every ancestor of a directory that is its own parent is that directory |
| GitRepo.HaveBranch | src/barbarians/barbarian.py:263-266 | a listing can only name a branch that is no longer than it and neither starts nor ends with one of "\n\t *+", so such a branch is never found |
| GitRepo.HaveBranchPadded | src/barbarians/barbarian.py:263-266 | a listing that is the branch name padded by characters from "\n\t *+" names that branch |
| GitRepo.HaveBranchShape | src/barbarians/barbarian.py:263-266 | conversely, a listing that names the branch is the branch name padded by such characters |
| GitRepo.TwoBranchesListed | src/barbarians/barbarian.py:263-266 | a listing of two branches never names just one of them |
| GitRepo.TweakGitignore | src/barbarians/barbarian.py:303-309 | the file is created exactly when missing; the text is saved exactly when "/.conan/" is absent, and then it is "/.conan/\n" followed by the old text |
| GitRepo.Tweaked | src/barbarians/barbarian.py:306-309 | the tweaked text always contains "/.conan/", ends with the old text, and equals it exactly when it already contained "/.conan/" |
| GitRepo.TweakIdempotent | src/barbarians/barbarian.py:306-309 | tweaking a tweaked file saves nothing and changes nothing |
| State.SetRecipeDir | src/barbarians/barbarian.py:111-114 | only the recipe directory changes; it is set from a path argument only while falsy, and never cleared |
| State.SetRootDir | src/barbarians/barbarian.py:93-101 | set-once; reports `NoRepositoryRoot`, where the source loops for ever, exactly when the root is falsy and the search from the recipe directory, else the working directory, finds nothing; otherwise the root is what the search finds |
| State.SetNameAndVersion | src/barbarians/barbarian.py:125-147 | set-once; on success root, name and version are set; a failure is either no root or an unbound name or version |
| State.SetDataDir | src/barbarians/barbarian.py:160-166 | set-once; on success root, name, version and data directory are set |
| State.SetUserAndChannel | src/barbarians/barbarian.py:177-186 | set-once; only user and channel change; raises exactly when unset and the reference has no '@' |
| State.SetExportDir | src/barbarians/barbarian.py:197-204 | set-once; on success data directory, user, channel and export directory are set |
| State.SetPublishDir | src/barbarians/barbarian.py:215-224 | set-once; on success root, name, version and publish directory are set |
| State.SetExportedRevision | src/barbarians/barbarian.py:235-242 | set-once; on success the export directory and the revision are set |
| State.SetRevisionPubDir | src/barbarians/barbarian.py:252-259 | set-once; on success publish directory, revision and revision directory are set |
| State.ExportState | src/barbarians/barbarian.py:293-297 | the three setters of `command_export` keep every truthy field; on success root, data and export directories are set |
| State.UploadState | src/barbarians/barbarian.py:314-320 | the five setters of `command_upload` keep every truthy field; on success the root, the name and version, the data directory, the user and channel, the export, publish and revision directories and the revision are all set |
| State.RootDirCached | src/barbarians/barbarian.py:96 | with a truthy root, `root_dir = args` changes nothing |
| State.DataDirCached | src/barbarians/barbarian.py:129 | with root, name and version and data directory cached, their setters change nothing |
| State.ExportDirCached | src/barbarians/barbarian.py:201 | with the export directory and its prerequisites cached, `recipe_export_dir = args` changes nothing |
| State.ExportContext | src/barbarians/barbarian.py:293-297 | an export's coordinates exist exactly when the search finds a root and the reference has '@'; no root gives the no-root error |
| State.UploadContext | src/barbarians/barbarian.py:314-320 | an upload's coordinates exist exactly when the search from the working directory finds a root, the reference has two components before '@' and an '@', and the export directory those give has a `metadata.json`; otherwise the error is, in that order, no root, the unbound name or version, no user and channel, or the missing metadata; the revision is the one recorded there |
| State.ExportStateMatchesContext | src/barbarians/barbarian.py:293-297 | from a new object, `command_export`'s setters fail exactly when the coordinates do not exist, with the same error, and otherwise leave exactly the recipe directory, root, name and version, data directory, user and channel and export directory set |
| State.UploadStateMatchesContext | src/barbarians/barbarian.py:314-320 | from a new object, `command_upload`'s setters fail exactly when the coordinates do not exist, with the same error, and otherwise leave every field but the recipe directory holding exactly those coordinates |
| Records.Snapshot | src/barbarians/barbarian.py:344-355 | `snapshot.json` has exactly the three artifact names as keys, each mapped to the digest of that artifact's bytes |
| Records.ArtifactListing | src/barbarians/barbarian.py:345-356 | `files.json` holds only `files`, whose keys are the three artifacts, each mapped to `{}` |
| Records.SnapshotJsonRoundTrip | src/barbarians/barbarian.py:357-358 | the JSON object dumped into `snapshot.json` has the snapshot's keys, and reading its string members back gives the snapshot itself, so the file determines every digest |
| Records.FilesJsonRoundTrip | src/barbarians/barbarian.py:359-360 | the JSON object dumped into `files.json` has the listing's keys, and reading its object members back gives the listing itself |
| Records.BuildManifests | src/barbarians/barbarian.py:344-356 | the successive insertions succeed exactly when the manifest and the recipe exist, fail with the first missing file otherwise, and build the snapshot and the listing |
| Records.ManifestsAgree | src/barbarians/barbarian.py:344-356 | the snapshot and the `files` listing have the same key set |
| Records.LatestJson | src/barbarians/barbarian.py:362-364 | `latest.json` has exactly `revision` and `time`, the time being the timestamp followed by "+0000" |
| Records.CommitMessage | src/barbarians/barbarian.py:371-373 | the message is "Upload ", the name, '/', the version, " revision ", the revision and '.', with exactly that length |
| Records.CommitMessageInjective | src/barbarians/barbarian.py:371-373 | when the name has no '/' and the version no space, the commit message determines the name, the version and the revision |
| Records.PublishPathsLayout | src/barbarians/barbarian.py:333-365 | with clean components, everything an upload writes lies in the revision directory, the archive under `files/`, except `latest.json`, which lies beside it |
| Records.Publish | src/barbarians/barbarian.py:328-373 | succeeds exactly when the export directory holds conandata, manifest and recipe; a missing export directory or conandata is an error; a failure writes no JSON and commits nothing; a success removes, creates and fills the revision directory, writes the archive, snapshot, listing and `latest.json` in that order, and commits with the upload message |
| Tool.Barbarian.constructor | src/barbarians/barbarian.py:87 | a new object has every backing field unset |
| Tool.Barbarian.SetRecipeDir | src/barbarians/barbarian.py:111-114 | leaves the fields as `State.SetRecipeDir` computes |
| Tool.Barbarian.SetRootDir | src/barbarians/barbarian.py:93-101 | the upward loop leaves the fields and the outcome as `State.SetRootDir` computes |
| Tool.Barbarian.SetNameAndVersion | src/barbarians/barbarian.py:125-147 | leaves the fields and the outcome as `State.SetNameAndVersion` computes |
| Tool.Barbarian.SetDataDir | src/barbarians/barbarian.py:160-166 | leaves the fields and the outcome as `State.SetDataDir` computes |
| Tool.Barbarian.SetUserAndChannel | src/barbarians/barbarian.py:177-186 | leaves the fields and the outcome as `State.SetUserAndChannel` computes |
| Tool.Barbarian.SetExportDir | src/barbarians/barbarian.py:197-204 | leaves the fields and the outcome as `State.SetExportDir` computes |
| Tool.Barbarian.SetPublishDir | src/barbarians/barbarian.py:215-224 | leaves the fields and the outcome as `State.SetPublishDir` computes |
| Tool.Barbarian.SetExportedRevision | src/barbarians/barbarian.py:235-242 | leaves the fields and the outcome as `State.SetExportedRevision` computes |
| Tool.Barbarian.SetRevisionPubDir | src/barbarians/barbarian.py:252-259 | leaves the fields and the outcome as `State.SetRevisionPubDir` computes |
| Tool.Barbarian.CommandExport | src/barbarians/barbarian.py:293-312 | the state is `State.ExportState`'s; a failure does nothing; a success removes the data directory, tweaks `ROOT/.gitignore`, then runs `conan export` with the path as typed and `CONAN_USER_HOME` set to the root, so that the export lands in `ROOT/.conan` |
| Tool.GitignoreActions | src/barbarians/barbarian.py:303-309 | the file is touched exactly when missing, and saved, last, exactly when "/.conan/" is absent, with the tweaked text |
| Tool.Barbarian.CommandUpload | src/barbarians/barbarian.py:314-373 | the state is `State.UploadState`'s; a setter failure does nothing; once the setters pass, the upload succeeds exactly when `export/` holds conandata, manifest and recipe, and a missing `export/` or conandata is its error; a success removes, creates and fills the revision directory, writes the archive, the snapshot of the exported files, the listing and `latest.json` for the exported revision, and commits with the upload message; a failure writes no JSON and commits nothing |
| Legacy.RootPath | barbarians/barbarian.py:50 | the root is the prefix of the recipe path before the first "/recipes/", or the whole path when there is none |
| Legacy.LegacyDirs | barbarians/barbarian.py:50-70 | fails exactly when the reference has no '@'; otherwise the root is the text before the first "/recipes/"; the removed `n/v` directory is a prefix of the `n/v/u/c` directory, and `export/`, the archive and the snapshot are entries of the latter |
| Legacy.LegacyExport | barbarians/barbarian.py:48-94 | fails with no user and channel, having done nothing, exactly when the reference has no '@'; otherwise removes `n/v`, runs `conan export` with `CONAN_USER_HOME` set to the text before the first "/recipes/", succeeds exactly when `export/` holds conandata, manifest and recipe, and on success writes the archive and the snapshot beside `export/`; a failure writes no snapshot |
| Legacy.ExportInto | barbarians/barbarian.py:73-94 | removes `n/v`, runs `conan export` with `CONAN_USER_HOME` set to the root, and succeeds exactly when `export/` holds conandata, manifest and recipe; on success it writes the archive and then the snapshot of those files; a failure writes no snapshot |
| Legacy.LegacySnapshot | barbarians/barbarian.py:85-94 | the snapshot has exactly the three artifact keys, each mapped to the digest of that file |
| Legacy.ArchiveBesideExport | barbarians/barbarian.py:79-81 | the archive sits in the `n/v/u/c` directory, beside `export/` and not inside it |
| Legacy.LegacyOverrideDefined | barbarians/barbarian.py:52-62 | with both values always inspected, two components set name and version, one sets the version, any other count keeps the inspection |
| Legacy.LegacyLayout | barbarians/barbarian.py:50-75 | with clean components, the removed directory is `root/.conan/data/name/version` and the export lands in `root/.conan/data/name/version/user/channel`, both in the cache of the conan home `root` that `conan export` is given |
| CleanConandata.ConandataBesideRecipe | src/barbarians/hooks/barbarian_clean_conandata_yml.py:15-16 | `conandata.yml` is looked up in the recipe's own directory |
| CleanConandata.KeepVersion | src/barbarians/hooks/barbarian_clean_conandata_yml.py:24-28 | the output's sections are input sections; a section is kept exactly when the version is one of its keys; a kept section maps only the version to its input value |
| CleanConandata.KeptSectionsHoldTheVersion | src/barbarians/hooks/barbarian_clean_conandata_yml.py:26-28 | no kept section is empty: its only key is the version, with its value unchanged |
| CleanConandata.KeepVersionIdempotent | src/barbarians/hooks/barbarian_clean_conandata_yml.py:24-28 | filtering the output again with the same version changes nothing |
| CleanConandata.OtherVersionEmpties | src/barbarians/hooks/barbarian_clean_conandata_yml.py:24-28 | filtering the output with a different version leaves no section |
| CleanConandata.PostExport | src/barbarians/hooks/barbarian_clean_conandata_yml.py:14-30 | writes nothing when `conandata.yml` does not exist beside the recipe, and otherwise writes that file with the filtered sections |

## Left out

- Subprocesses are not modelled: `exec`, `conan inspect` and `conan export`. Their results are inputs, and `conan export` is a recorded action, together with the `CONAN_USER_HOME` it runs with. A failing subprocess is not modelled.
- Git is not modelled: `make_empty_branch`, `make_barbarian_branch`, `push_barbarian_branch`, the upload worktree's `add` and its `remove` in the `finally` clause, `git status` and the push. The commit is the one recorded action.
- Filesystem effects are recorded `Action`s and are not carried out. `ignore_errors=True` on removal is implied. A half-written archive left behind by a failing `tgz.add` is not modelled.
- MD5, the gzipped tar and the UTC clock are parameters.
- The archive parameter makes `conan_export.tgz` depend only on the name and bytes of `conandata.yml`. The real gzip stream also carries the time in its header, and the tar header carries the file's metadata. No proved property relies on the archive's bytes.
- JSON and YAML serialisation are not modelled. The records are maps.
- Python's dict insertion order is not modelled, so the key order of the JSON and YAML output is not captured. `CleanConandata.PostExport` visits sections in an arbitrary order.
- `os.path.abspath` is not modelled: the recipe path is an absolute input. `State.ExportStateMatchesContext` requires the recipe path, and `State.UploadStateMatchesContext` the working directory, to be absolute, because a relative one could be empty and so falsy.
- `os.path.exists(dir/.git)` is a membership test in a given set of directories.
- Tool.Barbarian.SetRootDir: the source loops for ever when no ancestor holds `.git`. The model stops at the first directory that is its own parent and reports `NoRepositoryRoot`. `GitRepo.RepoRootAbsent` shows that the source's loop could never exit there.
- A `metadata.json` without `recipe.revision`, and malformed JSON or YAML, are not modelled. A missing `metadata.json` is `MissingMetadata`.
- `CleanConandata.KeepVersion`: every section is a mapping with string keys. The source also accepts other containers, where `in` has another meaning. YAML also reads unquoted version keys such as `1.3` or `2` as numbers, which never equal the version string, so the source drops those sections; the model does not capture that. An empty `conandata.yml`, which makes the loop raise, is not modelled.
- `argparse`, the command dispatch, `command_branch`, `command_ci` with its workflow template, and `run()` are command-line glue and are not modelled. `Barbarian.__init__` is reduced to its field defaults.
- `print` logging is not modelled.
- `command_upload` archives only `conandata.yml`; no archive of the recipe's sources is written.
- A missing `conandata.yml` makes `tgz.add` raise, which the model reports as `MissingFile(ConandataName)`.
- `files/` is a copy of the whole `export/` directory, so it can hold more than the three listed artifacts.

=== FILE: common.dfy ===
/** Failure-carrying datatypes shared by every module of the model. */
module Common {

  datatype Option<+T> = None | Some(value: T)

  datatype Result<+T, +E> = Ok(value: T) | Err(error: E)

  /** The exceptions the modelled code lets escape, one constructor per cause, and the search that never ends. */
  datatype Error =
    | NoUserChannel         // `reference.split('@', 1)[1]` raises IndexError: no '@' in the reference
    | UnboundNameOrVersion  // `recipe_n` or `recipe_v` is read while unbound (UnboundLocalError)
    | NoRepositoryRoot      // stands for the search for `.git` that never ends: it reached a directory that is its own parent
    | MissingMetadata       // `metadata.json` of the export cannot be opened
    | MissingExportDir      // `copytree` of the export's `export/` directory fails
    | MissingFile(name: string)  // opening or archiving a named file of `export/` fails

  /** Outcome of a step that yields no value. */
  datatype Outcome = Pass | Fail(error: Error)
}

=== FILE: gitrepo.dfy ===
/**
 * What the tool needs to know about the git checkout it works in: where its
 * root is (the nearest directory holding `.git`), whether a branch exists
 * according to `git branch --list`, and how `.gitignore` is made to skip the
 * local conan cache.
 */
module GitRepo {
  import opened Common
  import opened PosixPath
  import PyStr

  /** `os.path.exists(os.path.join(dir, ".git"))`: `gitDirs` holds the directories that have a `.git` entry. */
  predicate HasGit(gitDirs: set<string>, dir: string) {
    dir in gitDirs
  }

  /**
   * `os.path.dirname(p)` as the search for `.git` sees it: never longer than
   * `p`, strictly shorter unless `p` is its own parent. Keeping `Dirname`'s
   * body behind this name keeps the search proofs small.
   */
  function Parent(p: string): (r: string)
    ensures |r| <= |p| && (r != p ==> |r| < |p|)
    ensures IsAbs(p) ==> IsAbs(r)
  {
    Dirname(p)
  }

  /** The `k`-th ancestor of `p`: `dirname` applied `k` times. */
  function Ancestor(p: string, k: nat): string
    decreases k
  {
    if k == 0 then p else Ancestor(Parent(p), k - 1)
  }

  /**
   * The directory the search for `.git` stops at, starting from `start` and
   * moving to the parent while no `.git` is found. None when it reaches a
   * directory that is its own parent (such as "/") without finding one.
   */
  function RepoRoot(start: string, gitDirs: set<string>): (r: Option<string>)
    ensures r.Some? ==> HasGit(gitDirs, r.value)
    ensures r.Some? && IsAbs(start) ==> IsAbs(r.value)
    decreases |start|
  {
    if HasGit(gitDirs, start) then Some(start)
    else if Parent(start) == start then None
    else RepoRoot(Parent(start), gitDirs)
  }

  /** A found root is the nearest ancestor of the start directory, the start itself included, that holds `.git`. */
  lemma {:induction false} RepoRootNearest(start: string, gitDirs: set<string>) returns (k: nat)
    requires RepoRoot(start, gitDirs).Some?
    ensures RepoRoot(start, gitDirs).value == Ancestor(start, k)
    ensures HasGit(gitDirs, Ancestor(start, k))
    ensures forall j :: 0 <= j < k ==> !HasGit(gitDirs, Ancestor(start, j))
    decreases |start|
  {
    if HasGit(gitDirs, start) {
      k := 0;
    } else {
      var parent := Parent(start);
      var k' := RepoRootNearest(parent, gitDirs);
      k := k' + 1;
      assert Ancestor(start, k) == Ancestor(parent, k');
      forall j | 0 <= j < k
        ensures !HasGit(gitDirs, Ancestor(start, j))
      {
        if j > 0 {
          assert Ancestor(start, j) == Ancestor(parent, j - 1);
        }
      }
    }
  }

  /** Every ancestor of a directory that is its own parent is that directory. */
  lemma {:induction false} AncestorOfFixpoint(p: string, k: nat)
    requires Parent(p) == p
    ensures Ancestor(p, k) == p
    decreases k
  {
    if k > 0 {
      AncestorOfFixpoint(p, k - 1);
    }
  }

  /** When the search reports no root, no ancestor at all holds `.git`: the source's loop would never end. */
  lemma {:induction false} RepoRootAbsent(start: string, gitDirs: set<string>, k: nat)
    requires RepoRoot(start, gitDirs).None?
    ensures !HasGit(gitDirs, Ancestor(start, k))
    decreases |start|
  {
    assert !HasGit(gitDirs, start);
    var parent := Parent(start);
    if parent == start {
      AncestorOfFixpoint(start, k);
      assert Ancestor(start, k) == start;
      assert !HasGit(gitDirs, Ancestor(start, k));
    } else if k == 0 {
      assert !HasGit(gitDirs, Ancestor(start, k));
    } else {
      assert RepoRoot(start, gitDirs) == RepoRoot(parent, gitDirs);
      RepoRootAbsent(parent, gitDirs, k - 1);
      assert Ancestor(start, k) == Ancestor(parent, k - 1);
      assert !HasGit(gitDirs, Ancestor(start, k));
    }
  }

  /** Characters `have_branch` strips from both ends of the `git branch --list` output. */
  const BranchListNoise: set<char> := {'\n', '\t', ' ', '*', '+'}

  /** `have_branch`: the listing, stripped of noise at both ends, is exactly the branch name. */
  predicate HaveBranch(listing: string, branch: string): (r: bool)
    ensures r ==> |branch| <= |listing|
    ensures r && branch != "" ==> branch[0] !in BranchListNoise && branch[|branch| - 1] !in BranchListNoise
  {
    PyStr.Strip(listing, BranchListNoise) == branch
  }

  /** A listing that is the branch name padded by markers and whitespace names that branch. */
  lemma HaveBranchPadded(pre: string, branch: string, post: string)
    requires PyStr.AllIn(pre, BranchListNoise) && PyStr.AllIn(post, BranchListNoise)
    requires branch != "" && branch[0] !in BranchListNoise && branch[|branch| - 1] !in BranchListNoise
    ensures HaveBranch(pre + branch + post, branch)
  {
    PyStr.StripPadded(pre, branch, post, BranchListNoise);
  }

  /** Conversely, a listing that names the branch is the branch name padded by markers and whitespace. */
  lemma HaveBranchShape(listing: string, branch: string) returns (pre: string, post: string)
    requires HaveBranch(listing, branch)
    ensures listing == pre + branch + post
    ensures PyStr.AllIn(pre, BranchListNoise) && PyStr.AllIn(post, BranchListNoise)
  {
    pre, post := PyStr.StripDecompose(listing, BranchListNoise);
  }

  /** A listing of two branches never equals one name: the other name survives the strip. */
  lemma {:induction false} TwoBranchesListed(branch: string, other: string)
    requires branch != "" && branch[0] !in BranchListNoise && branch[|branch| - 1] !in BranchListNoise
    requires other != "" && other[0] !in BranchListNoise && other[|other| - 1] !in BranchListNoise
    ensures !HaveBranch("* " + branch + "\n  " + other + "\n", branch)
  {
    var core := branch + "\n  " + other;
    assert "* " + branch + "\n  " + other + "\n" == "* " + core + "\n";
    assert core[0] == branch[0];
    assert core[|core| - 1] == other[|other| - 1];
    PyStr.StripPadded("* ", core, "\n", BranchListNoise);
    assert |core| > |branch|;
  }

  /** The line `.gitignore` must hold so that the local conan cache is not committed. */
  const ConanIgnore: string := "/.conan/"

  /** What the `.gitignore` tweak does: whether it creates the file, and what it saves, if anything. */
  datatype GitignoreTweak = GitignoreTweak(touched: bool, saved: Option<string>)

  /**
   * The `.gitignore` tweak of an export. `current` is the file's content, or
   * None when it does not exist, in which case it is created empty first.
   */
  function TweakGitignore(current: Option<string>): (r: GitignoreTweak)
    ensures r.touched <==> current.None?
    ensures r.saved.Some? <==> !PyStr.Contains(Loaded(current), ConanIgnore)
    ensures r.saved.Some? ==> r.saved.value == ConanIgnore + "\n" + Loaded(current)
  {
    var content := Loaded(current);
    if PyStr.Contains(content, ConanIgnore) then GitignoreTweak(current.None?, None)
    else GitignoreTweak(current.None?, Some(ConanIgnore + "\n" + content))
  }

  /** The text read back after the file has been created if needed. */
  function Loaded(current: Option<string>): string {
    if current.Some? then current.value else ""
  }

  /** The file content after the tweak. */
  function Tweaked(current: Option<string>): (r: string)
    ensures PyStr.Contains(r, ConanIgnore)
    ensures |Loaded(current)| <= |r| && r[|r| - |Loaded(current)|..] == Loaded(current)
    ensures r == Loaded(current) <==> PyStr.Contains(Loaded(current), ConanIgnore)
  {
    var t := TweakGitignore(current);
    if t.saved.Some? then
      assert t.saved.value[..|ConanIgnore|] == ConanIgnore;
      PyStr.ContainsWhenOccurs(t.saved.value, ConanIgnore, 0);
      t.saved.value
    else Loaded(current)
  }

  /** Tweaking an already tweaked file changes nothing and saves nothing. */
  lemma TweakIdempotent(current: Option<string>)
    ensures TweakGitignore(Some(Tweaked(current))).saved.None?
    ensures Tweaked(Some(Tweaked(current))) == Tweaked(current)
  {
  }
}

=== FILE: hook.dfy ===
/**
 * The `post_export` conan hook: after an export, the `conandata.yml` next to
 * the recipe is rewritten so that each top-level section keeps only the entry
 * for the exported version, and sections without one disappear.
 */
module CleanConandata {
  import opened Common
  import opened PosixPath

  /** `conandata.yml` as the hook reads it: sections, each mapping versions to arbitrary data. */
  type Conandata<V> = map<string, map<string, V>>

  /** `os.path.join(os.path.dirname(conanfile_path), "conandata.yml")`. */
  function ConandataPath(conanfilePath: string): string {
    Join(Dirname(conanfilePath), "conandata.yml")
  }

  /** The hook looks for `conandata.yml` in the recipe's own directory. */
  lemma ConandataBesideRecipe(dir: string, recipe: string)
    requires IsBase(dir) && IsName(recipe)
    ensures ConandataPath(Join(dir, recipe)) == dir + "/" + "conandata.yml"
  {
    var recipePath := Join(dir, recipe);
    DirnameOfJoin(dir, recipe);
    assert Dirname(recipePath) == dir;
    JoinName(dir, "conandata.yml");
  }

  /** The sections that mention `version`, each cut down to that one entry. */
  function KeepVersion<V>(data: Conandata<V>, version: string): (r: Conandata<V>)
    ensures r.Keys <= data.Keys
    ensures forall section :: section in data ==> (section in r <==> version in data[section])
    ensures forall section :: section in r ==> r[section] == map[version := data[section][version]]
  {
    map section | section in data && version in data[section] :: map[version := data[section][version]]
  }

  /** No kept section is empty: each holds exactly the version, with its value unchanged. */
  lemma KeptSectionsHoldTheVersion<V>(data: Conandata<V>, version: string, section: string)
    requires section in KeepVersion(data, version)
    ensures KeepVersion(data, version)[section].Keys == {version}
    ensures KeepVersion(data, version)[section][version] == data[section][version]
  {
  }

  /** Cleaning an already cleaned `conandata.yml` for the same version changes nothing. */
  lemma KeepVersionIdempotent<V>(data: Conandata<V>, version: string)
    ensures KeepVersion(KeepVersion(data, version), version) == KeepVersion(data, version)
  {
    var once := KeepVersion(data, version);
    var twice := KeepVersion(once, version);
    assert twice.Keys == once.Keys;
    forall section | section in once
      ensures twice[section] == once[section]
    {
      assert version in once[section];
    }
  }

  /** Cleaning for one version and then another leaves nothing, since every kept section holds only the first. */
  lemma OtherVersionEmpties<V>(data: Conandata<V>, version: string, other: string)
    requires other != version
    ensures KeepVersion(KeepVersion(data, version), other) == map[]
  {
    var once := KeepVersion(data, version);
    assert forall section :: section in once ==> other !in once[section];
  }

  /**
   * `post_export`. `files` holds each existing `conandata.yml` by path,
   * already parsed; the result is the path and content written, or None when
   * the recipe has no `conandata.yml` and nothing is written.
   */
  method PostExport<V>(conanfilePath: string, version: string, files: map<string, Conandata<V>>)
    returns (saved: Option<(string, Conandata<V>)>)
    ensures ConandataPath(conanfilePath) !in files ==> saved.None?
    ensures ConandataPath(conanfilePath) in files ==>
      saved == Some((ConandataPath(conanfilePath), KeepVersion(files[ConandataPath(conanfilePath)], version)))
  {
    var path := Join(Dirname(conanfilePath), "conandata.yml");
    if path !in files {
      return None;
    }
    var input := files[path];
    var output: Conandata<V> := map[];
    var pending := input.Keys;
    while pending != {}
      invariant pending <= input.Keys
      invariant forall section :: section in output <==> section in input && section !in pending && version in input[section]
      invariant forall section :: section in output ==> output[section] == map[version := input[section][version]]
      decreases |pending|
    {
      var section :| section in pending;
      if version in input[section] {
        output := output[section := map[version := input[section][version]]];
      }
      pending := pending - {section};
    }
    assert output == KeepVersion(input, version);
    return Some((path, output));
  }
}

=== FILE: layout.dfy ===
/**
 * Where things live. Exports go to the local cache under the repository root,
 * `root/.conan/data/<name>/<version>/<user>/<channel>`; published revisions go
 * to `root/.barbarian_upload/<name>/<version>/<revision>`, next to that
 * version's `latest.json`.
 */
module Layout {
  import opened PosixPath
  import opened Reference

  /** `os.path.join(root, ".conan", "data", name, version)`. */
  function DataDir(root: string, nv: NameVersion): (r: string)
    ensures r != ""
  {
    Join(Join(Join(Join(root, ".conan"), "data"), nv.name), nv.version)
  }

  /** `os.path.join(data_dir, user, channel)`. */
  function ExportDir(dataDir: string, uc: UserChannel): (r: string)
    ensures dataDir != "" ==> r != ""
  {
    Join(Join(dataDir, uc.user), uc.channel)
  }

  /** `os.path.join(root, ".barbarian_upload", name, version)`. */
  function PublishDir(root: string, nv: NameVersion): (r: string)
    ensures r != ""
  {
    Join(Join(Join(root, ".barbarian_upload"), nv.name), nv.version)
  }

  /** `os.path.join(publish_dir, revision)`. */
  function RevisionDir(publishDir: string, revision: string): (r: string)
    ensures publishDir != "" ==> r != ""
  {
    Join(publishDir, revision)
  }

  /** Where the export's revision is read from. */
  function MetadataPath(exportDir: string): string {
    Join(exportDir, "metadata.json")
  }

  /** The per-version record of the latest published revision. */
  function LatestPath(publishDir: string): string {
    Join(publishDir, "latest.json")
  }

  /** With clean components, the cache paths are the components separated by single slashes. */
  lemma ExportDirLayout(root: string, nv: NameVersion, uc: UserChannel)
    requires IsBase(root)
    requires IsName(nv.name) && IsName(nv.version) && IsName(uc.user) && IsName(uc.channel)
    ensures DataDir(root, nv) == root + "/" + ".conan" + "/" + "data" + "/" + nv.name + "/" + nv.version
    ensures ExportDir(DataDir(root, nv), uc)
         == root + "/" + ".conan" + "/" + "data" + "/" + nv.name + "/" + nv.version + "/" + uc.user + "/" + uc.channel
  {
    var d1 := Join(root, ".conan");
    JoinName(root, ".conan");
    var d2 := Join(d1, "data");
    JoinName(d1, "data");
    var d3 := Join(d2, nv.name);
    JoinName(d2, nv.name);
    var d4 := Join(d3, nv.version);
    JoinName(d3, nv.version);
    JoinName(d4, uc.user);
    JoinName(Join(d4, uc.user), uc.channel);
  }

  /** With clean components, the publish paths are the components separated by single slashes. */
  lemma PublishDirLayout(root: string, nv: NameVersion, revision: string)
    requires IsBase(root)
    requires IsName(nv.name) && IsName(nv.version) && IsName(revision)
    ensures PublishDir(root, nv) == root + "/" + ".barbarian_upload" + "/" + nv.name + "/" + nv.version
    ensures RevisionDir(PublishDir(root, nv), revision) == PublishDir(root, nv) + "/" + revision
    ensures LatestPath(PublishDir(root, nv)) == PublishDir(root, nv) + "/" + "latest.json"
  {
    var d1 := Join(root, ".barbarian_upload");
    JoinName(root, ".barbarian_upload");
    var d2 := Join(d1, nv.name);
    JoinName(d1, nv.name);
    var pub := Join(d2, nv.version);
    JoinName(d2, nv.version);
    JoinName(pub, revision);
    JoinName(pub, "latest.json");
  }

  /** A revision directory and `latest.json` share the same parent, the version's publish directory. */
  lemma RevisionBesideLatest(publishDir: string, revision: string)
    requires IsBase(publishDir) && IsName(revision)
    ensures Dirname(RevisionDir(publishDir, revision)) == publishDir
    ensures Dirname(LatestPath(publishDir)) == publishDir
  {
    var rd := RevisionDir(publishDir, revision);
    DirnameOfJoin(publishDir, revision);
    assert Dirname(rd) == publishDir;
    var lp := LatestPath(publishDir);
    DirnameOfJoin(publishDir, "latest.json");
    assert Dirname(lp) == publishDir;
  }

  /** The export directory lies inside the data directory, so removing the latter removes the former. */
  lemma ExportDirUnderDataDir(dataDir: string, uc: UserChannel)
    requires !IsAbs(uc.user) && !IsAbs(uc.channel)
    ensures |dataDir| <= |ExportDir(dataDir, uc)| && ExportDir(dataDir, uc)[..|dataDir|] == dataDir
  {
    var mid := Join(dataDir, uc.user);
    var r := Join(mid, uc.channel);
    assert r[..|mid|][..|dataDir|] == r[..|dataDir|];
  }

  /**
   * An empty version (the reference "@user/channel" with a recipe directory)
   * leaves a trailing '/' on the data directory and no level of its own in the
   * export directory.
   */
  lemma EmptyVersionLeavesNoLevel(root: string, name: string, uc: UserChannel)
    requires IsBase(root) && IsName(name) && IsName(uc.user) && IsName(uc.channel)
    ensures DataDir(root, NameVersion(name, "")) == root + "/" + ".conan" + "/" + "data" + "/" + name + "/"
    ensures ExportDir(DataDir(root, NameVersion(name, "")), uc)
         == root + "/" + ".conan" + "/" + "data" + "/" + name + "/" + uc.user + "/" + uc.channel
  {
    var d1 := Join(root, ".conan");
    JoinName(root, ".conan");
    var d2 := Join(d1, "data");
    JoinName(d1, "data");
    var d3 := Join(d2, name);
    JoinName(d2, name);
    var data := Join(d3, "");
    assert data == d3 + "/";
    var d5 := Join(data, uc.user);
    assert d5 == d3 + "/" + uc.user;
    assert d5[|d5| - 1] == uc.user[|uc.user| - 1];
    JoinName(d5, uc.channel);
  }
}

=== FILE: legacy.dfy ===
/**
 * The first entry point, `barbarians/barbarian.py`, whose `export` both
 * exports and writes the v1 snapshot into the local cache. Its root is the
 * recipe path up to the first "/recipes/", and the inspected name and version
 * are always available.
 */
module Legacy {
  import opened Common
  import PyStr
  import opened PosixPath
  import opened Reference
  import opened Layout
  import opened Records

  /** The path component that marks where a repository's recipes start. */
  const RecipesMarker: string := "/recipes/"

  /** `recipe_path.partition("/recipes/")[0]`: the text before the first marker, or all of it. */
  function RootPath(recipePath: string): (r: string)
    ensures |r| <= |recipePath| && r == recipePath[..|r|]
    ensures forall j: nat :: j < |r| ==> !PyStr.OccursAt(recipePath, RecipesMarker, j)
    ensures PyStr.Contains(recipePath, RecipesMarker) ==> PyStr.OccursAt(recipePath, RecipesMarker, |r|)
    ensures !PyStr.Contains(recipePath, RecipesMarker) ==> r == recipePath
  {
    var (before, _, _) := PyStr.Partition(recipePath, RecipesMarker);
    before
  }

  /**
   * The cache paths of a legacy export: the repository root, whose `.conan`
   * is the conan home of the export, the `n/v` directory that is removed,
   * the `n/v/u/c` directory the export lands in, the `export/` directory
   * `conan export` fills, and the archive and snapshot written beside it.
   */
  datatype CacheDirs = CacheDirs(root: string, dataNv: string, dataNvuc: string, exportDir: string, tgz: string, snapshot: string)

  /** The export directory, the archive and the snapshot are the named entries of the `n/v/u/c` directory. */
  predicate InExportDir(d: CacheDirs) {
    && IsBase(d.dataNvuc)
    && d.exportDir == Join(d.dataNvuc, "export")
    && d.tgz == Join(d.dataNvuc, TgzName)
    && d.snapshot == Join(d.dataNvuc, "snapshot.json")
  }

  /** The cache paths of a reference; a reference without '@' has no user and channel and raises. */
  function LegacyDirs(recipePath: string, reference: string, inspected: NameVersion): (r: Result<CacheDirs, Error>)
    ensures r.Err? <==> '@' !in reference
    ensures r.Err? ==> r.error == NoUserChannel
    ensures r.Ok? ==> |r.value.dataNv| <= |r.value.dataNvuc| && r.value.dataNvuc[..|r.value.dataNv|] == r.value.dataNv
    ensures r.Ok? ==> InExportDir(r.value)
    ensures r.Ok? ==> r.value.root == RootPath(recipePath)
  {
    var root := RootPath(recipePath);
    var nv := ResolveNameVersion(reference, Some(inspected)).value;
    match ParseUserChannel(reference)
    case Err(e) => Err(e)
    case Ok(uc) =>
      var dataNv := DataDir(root, nv);
      assert uc.user[0] in uc.user && uc.channel[0] in uc.channel;
      ExportDirUnderDataDir(dataNv, uc);
      var dataNvuc := ExportDir(dataNv, uc);
      assert dataNvuc[|dataNvuc| - 1] == uc.channel[|uc.channel| - 1];
      Ok(CacheDirs(root, dataNv, dataNvuc, Join(dataNvuc, "export"), Join(dataNvuc, TgzName), Join(dataNvuc, "snapshot.json")))
  }

  /** The effects of a legacy export, and whether it raised. */
  datatype LegacyRun = LegacyRun(actions: seq<Action>, outcome: Outcome)

  /**
   * `command_export` of the first entry point. `path` is the argument as
   * given and `recipePath` its absolute form; `trees` holds the contents of
   * each existing directory after `conan export` has run.
   */
  function LegacyExport(path: string, recipePath: string, reference: string, inspected: NameVersion,
                        trees: map<string, Tree>, md5: Bytes -> string, archive: (string, Bytes) -> Bytes): (r: LegacyRun)
    ensures '@' !in reference ==> r == LegacyRun([], Fail(NoUserChannel))
    ensures '@' in reference ==>
      var d := LegacyDirs(recipePath, reference, inspected).value;
      && |r.actions| >= 2
      && r.actions[..2] == [RemoveTree(d.dataNv), ConanExport(RootPath(recipePath), path, reference)]
      && (r.outcome.Pass? <==> d.exportDir in trees && Publishable(trees[d.exportDir]))
    ensures r.outcome.Fail? ==> forall i :: 0 <= i < |r.actions| ==> !r.actions[i].WriteJson?
    ensures r.outcome.Pass? ==>
      var d := LegacyDirs(recipePath, reference, inspected).value;
      var tree := trees[d.exportDir];
      var tgz := archive(ConandataName, tree[ConandataName]);
      && |r.actions| == 4
      && r.actions[2] == WriteArchive(d.tgz, tgz)
      && r.actions[3] == WriteJson(d.snapshot, SnapshotJson(Snapshot(tgz, tree[ManifestName], tree[ConanfileName], md5)))
  {
    ExportInto(path, reference, LegacyDirs(recipePath, reference, inspected), trees, md5, archive)
  }

  /** The steps of `command_export` once the cache paths, or the error computing them, are known. */
  function ExportInto(path: string, reference: string, dirs: Result<CacheDirs, Error>,
                      trees: map<string, Tree>, md5: Bytes -> string, archive: (string, Bytes) -> Bytes): (r: LegacyRun)
    ensures dirs.Err? ==> r == LegacyRun([], Fail(dirs.error))
    ensures dirs.Ok? ==>
      && |r.actions| >= 2
      && r.actions[..2] == [RemoveTree(dirs.value.dataNv), ConanExport(dirs.value.root, path, reference)]
      && (r.outcome.Pass? <==> dirs.value.exportDir in trees && Publishable(trees[dirs.value.exportDir]))
    ensures r.outcome.Fail? ==> forall i :: 0 <= i < |r.actions| ==> !r.actions[i].WriteJson?
    ensures r.outcome.Pass? ==>
      var tree := trees[dirs.value.exportDir];
      var tgz := archive(ConandataName, tree[ConandataName]);
      && |r.actions| == 4
      && r.actions[2] == WriteArchive(dirs.value.tgz, tgz)
      && r.actions[3] == WriteJson(dirs.value.snapshot, SnapshotJson(Snapshot(tgz, tree[ManifestName], tree[ConanfileName], md5)))
  {
    match dirs
    case Err(e) => LegacyRun([], Fail(e))
    case Ok(d) =>
      var prepared := [RemoveTree(d.dataNv), ConanExport(d.root, path, reference)];
      if d.exportDir !in trees || ConandataName !in trees[d.exportDir] then
        LegacyRun(prepared, Fail(MissingFile(ConandataName)))
      else
        var tree := trees[d.exportDir];
        var tgz := archive(ConandataName, tree[ConandataName]);
        var archived := prepared + [WriteArchive(d.tgz, tgz)];
        if ManifestName !in tree then LegacyRun(archived, Fail(MissingFile(ManifestName)))
        else if ConanfileName !in tree then LegacyRun(archived, Fail(MissingFile(ConanfileName)))
        else
          var snapshot := Snapshot(tgz, tree[ManifestName], tree[ConanfileName], md5);
          LegacyRun(archived + [WriteJson(d.snapshot, SnapshotJson(snapshot))], Pass)
  }

  /**
   * A successful legacy export records exactly the three artifacts, each
   * mapped to the digest of its bytes.
   */
  lemma LegacySnapshot(path: string, reference: string, dirs: Result<CacheDirs, Error>,
                       trees: map<string, Tree>, md5: Bytes -> string, archive: (string, Bytes) -> Bytes)
    requires ExportInto(path, reference, dirs, trees, md5, archive).outcome.Pass?
    ensures var json := ExportInto(path, reference, dirs, trees, md5, archive).actions[3].json;
      var tree := trees[dirs.value.exportDir];
      && json.JObj? && json.fields.Keys == Artifacts
      && json.fields[TgzName] == JStr(md5(archive(ConandataName, tree[ConandataName])))
      && json.fields[ManifestName] == JStr(md5(tree[ManifestName]))
      && json.fields[ConanfileName] == JStr(md5(tree[ConanfileName]))
  {
    var tree := trees[dirs.value.exportDir];
    var snapshot := Snapshot(archive(ConandataName, tree[ConandataName]), tree[ManifestName], tree[ConanfileName], md5);
    assert snapshot.Keys == Artifacts;
  }

  /** The archive sits beside `export/`, in the `n/v/u/c` directory, not inside it. */
  lemma ArchiveBesideExport(d: CacheDirs)
    requires InExportDir(d)
    ensures Dirname(d.tgz) == d.dataNvuc
    ensures d.exportDir == d.dataNvuc + "/" + "export" && d.tgz == d.dataNvuc + "/" + TgzName
  {
    DirnameOfJoin(d.dataNvuc, TgzName);
    JoinName(d.dataNvuc, "export");
    JoinName(d.dataNvuc, TgzName);
  }

  /** The legacy override always yields a name and version, since both are always inspected. */
  lemma LegacyOverrideDefined(reference: string, inspected: NameVersion)
    ensures ResolveNameVersion(reference, Some(inspected)).Ok?
    ensures |NameVersionParts(reference)| == 1 ==>
      ResolveNameVersion(reference, Some(inspected)).value == NameVersion(inspected.name, NameVersionParts(reference)[0])
    ensures |NameVersionParts(reference)| == 2 ==>
      ResolveNameVersion(reference, Some(inspected)).value == NameVersion(NameVersionParts(reference)[0], NameVersionParts(reference)[1])
    ensures |NameVersionParts(reference)| > 2 ==> ResolveNameVersion(reference, Some(inspected)).value == inspected
  {
  }

  /**
   * With clean components, the legacy layout is the same cache layout the
   * current entry point uses, rooted at the text before "/recipes/": the
   * removed `n/v` directory and the `n/v/u/c` directory the export lands in
   * both lie in the `.conan` cache of the conan home `conan export` is given.
   */
  lemma LegacyLayout(recipePath: string, reference: string, inspected: NameVersion)
    requires '@' in reference
    requires IsBase(RootPath(recipePath))
    requires var nv := ResolveNameVersion(reference, Some(inspected)).value; IsName(nv.name) && IsName(nv.version)
    ensures var nv := ResolveNameVersion(reference, Some(inspected)).value;
      var uc := ParseUserChannel(reference).value;
      var root := RootPath(recipePath);
      var d := LegacyDirs(recipePath, reference, inspected).value;
      && d.root == root
      && d.dataNv == root + "/" + ".conan" + "/" + "data" + "/" + nv.name + "/" + nv.version
      && d.dataNvuc == root + "/" + ".conan" + "/" + "data" + "/" + nv.name + "/" + nv.version + "/" + uc.user + "/" + uc.channel
  {
    var nv := ResolveNameVersion(reference, Some(inspected)).value;
    var uc := ParseUserChannel(reference).value;
    ExportDirLayout(RootPath(recipePath), nv, uc);
  }
}

=== FILE: posixpath.dfy ===
/**
 * The two `os.path` functions the layout is built from, with POSIX semantics:
 * `join`, where an absolute component discards what precedes it and an empty
 * component leaves a trailing '/', and `dirname`.
 */
module PosixPath {
  import opened Common
  import PyStr

  predicate IsAbs(p: string) {
    |p| > 0 && p[0] == '/'
  }

  /** A path a clean component can be joined onto with a single '/'. */
  predicate IsBase(p: string) {
    p != "" && p[|p| - 1] != '/'
  }

  /** A single path component as the layout uses it: non-empty and free of '/'. */
  predicate IsName(p: string) {
    p != "" && '/' !in p
  }

  /** `os.path.join(a, b)`. */
  function Join(a: string, b: string): (r: string)
    ensures IsAbs(b) ==> r == b
    ensures !IsAbs(b) ==> |a| + |b| <= |r| && r[..|a|] == a && r[|r| - |b|..] == b
    ensures !IsAbs(b) && a != "" && a[|a| - 1] != '/' ==> |r| == |a| + 1 + |b| && r[|a|] == '/'
    ensures a != "" || b != "" ==> r != ""
  {
    if IsAbs(b) then b
    else if a == "" || a[|a| - 1] == '/' then a + b
    else a + "/" + b
  }

  /** Joining a clean name onto a base inserts exactly one '/', and the result is again a base. */
  lemma JoinName(a: string, b: string)
    requires IsBase(a) && IsName(b)
    ensures Join(a, b) == a + "/" + b && IsBase(Join(a, b))
  {
    var r := Join(a, b);
    assert r[|r| - 1] == b[|b| - 1];
  }

  /** The position of the last `c` in `s`, as `s.rfind(c)`. */
  function LastIndex(s: string, c: char): (r: Option<nat>)
    ensures r.Some? ==> r.value < |s| && s[r.value] == c
    ensures r.Some? ==> forall k :: r.value < k < |s| ==> s[k] != c
    ensures r.None? ==> c !in s
    decreases |s|
  {
    if s == "" then None
    else if s[|s| - 1] == c then Some(|s| - 1)
    else
      var r := LastIndex(s[..|s| - 1], c);
      assert r.None? ==> forall k :: 0 <= k < |s| - 1 ==> s[k] == s[..|s| - 1][k];
      r
  }

  /**
   * `os.path.dirname(p)`: the text up to and including the last '/', with
   * trailing slashes removed unless it consists of slashes only.
   */
  function Dirname(p: string): (r: string)
    ensures |r| <= |p| && r == p[..|r|]
    ensures r == p <==> PyStr.AllIn(p, {'/'})
    ensures IsAbs(p) ==> IsAbs(r)
  {
    var i := match LastIndex(p, '/') case None => 0 case Some(k) => k + 1;
    var head := p[..i];
    var r := if head != "" && !PyStr.AllIn(head, {'/'}) then PyStr.RStrip(head, {'/'}) else head;
    assert r == p ==> i == |p| && head == p;
    assert PyStr.AllIn(p, {'/'}) && p != "" ==> p[|p| - 1] == '/' && i == |p|;
    assert i == |p| && p != "" ==> p[|p| - 1] == '/';
    r
  }

  /** The parent of `a` joined with a clean name is `a` itself. */
  lemma DirnameOfJoin(a: string, b: string)
    requires IsBase(a) && IsName(b)
    ensures Dirname(Join(a, b)) == a
  {
    var p := Join(a, b);
    assert p == a + "/" + b;
    assert p[|a|] == '/';
    assert forall k :: |a| < k < |p| ==> p[k] == b[k - |a| - 1] && p[k] != '/';
    var i := LastIndex(p, '/');
    assert i == Some(|a|);
    var head := p[..|a| + 1];
    assert head == a + "/";
    assert head[|a| - 1] != '/';
    assert !PyStr.AllIn(head, {'/'});
    var r := PyStr.RStrip(head, {'/'});
    assert PyStr.AllIn(head[|r|..], {'/'});
    assert forall k :: |r| <= k < |head| ==> head[|r|..][k - |r|] == head[k] == '/';
    assert |r| == |a|;
    assert r == head[..|a|] == a;
  }
}

=== FILE: pystr.dfy ===
/**
 * Python's `str` operations that the publish logic relies on: `find`/`in`,
 * `split(c)`, `split(c, 1)`, `partition` and `strip(chars)`.
 */
module PyStr {
  import opened Common

  /** `sub` occurs in `s` starting at index `i`. */
  predicate OccursAt(s: string, sub: string, i: nat) {
    i + |sub| <= |s| && s[i..i + |sub|] == sub
  }

  lemma OccursAtTail(s: string, sub: string, j: nat)
    requires |s| > 0
    ensures OccursAt(s, sub, j + 1) <==> OccursAt(s[1..], sub, j)
  {
    if j + 1 + |sub| <= |s| {
      assert s[j + 1..j + 1 + |sub|] == s[1..][j..j + |sub|];
    }
  }

  /** `s.find(sub)`: the first index at which `sub` occurs in `s`, if any. */
  function Find(s: string, sub: string): (r: Option<nat>)
    ensures r.Some? ==> OccursAt(s, sub, r.value)
    ensures r.Some? ==> forall j: nat :: j < r.value ==> !OccursAt(s, sub, j)
    ensures r.None? ==> forall j: nat :: !OccursAt(s, sub, j)
    decreases |s|
  {
    if |s| < |sub| then None
    else if s[..|sub|] == sub then
      assert s[0..0 + |sub|] == s[..|sub|];
      Some(0)
    else
      var rest := Find(s[1..], sub);
      assert forall j: nat :: 1 <= j ==> (OccursAt(s, sub, j) <==> OccursAt(s[1..], sub, j - 1)) by {
        forall j: nat | 1 <= j ensures OccursAt(s, sub, j) <==> OccursAt(s[1..], sub, j - 1) {
          OccursAtTail(s, sub, j - 1);
        }
      }
      assert !OccursAt(s, sub, 0);
      match rest
      case None => None
      case Some(i) => Some(i + 1)
  }

  /** Python's `sub in s`. */
  predicate Contains(s: string, sub: string) {
    Find(s, sub).Some?
  }

  lemma ContainsWhenOccurs(s: string, sub: string, i: nat)
    requires OccursAt(s, sub, i)
    ensures Contains(s, sub)
  {
  }

  /** `s.split(c, 1)`: one piece when `c` is absent, otherwise the text before and after the first `c`. */
  function SplitFirst(s: string, c: char): (r: seq<string>)
    ensures |r| == 1 || |r| == 2
    ensures |r| == 1 <==> c !in s
    ensures |r| == 1 ==> r[0] == s
    ensures |r| == 2 ==> s == r[0] + [c] + r[1] && c !in r[0]
  {
    match Find(s, [c])
    case None =>
      assert forall k :: 0 <= k < |s| ==> s[k] != c by {
        forall k | 0 <= k < |s| ensures s[k] != c {
          assert s[k..k + 1] == [s[k]];
          assert !OccursAt(s, [c], k);
        }
      }
      [s]
    case Some(i) =>
      assert s[i..i + 1] == [c];
      assert forall k :: 0 <= k < i ==> s[k] != c by {
        forall k | 0 <= k < i ensures s[k] != c {
          assert s[k..k + 1] == [s[k]];
          assert !OccursAt(s, [c], k);
        }
      }
      assert s == s[..i] + [c] + s[i + 1..];
      [s[..i], s[i + 1..]]
  }

  /** The pieces of `s.split(c, 1)` are determined by the first `c`. */
  lemma {:induction false} SplitFirstOf(a: string, c: char, b: string)
    requires c !in a
    ensures SplitFirst(a + [c] + b, c) == [a, b]
  {
    var s := a + [c] + b;
    assert s[|a|] == c;
    var r := SplitFirst(s, c);
    assert |r| == 2;
    assert s[|r[0]|] == c;
    assert forall k :: 0 <= k < |a| ==> s[k] == a[k] && s[k] != c;
    assert forall k :: 0 <= k < |r[0]| ==> s[k] == r[0][k] && s[k] != c;
    assert |r[0]| == |a|;
    assert r[0] == s[..|a|] == a;
    assert r[1] == b;
  }

  /** `s.split(c)` for a one-character separator; it never returns an empty list. */
  function Split(s: string, c: char): (r: seq<string>)
    ensures |r| >= 1
    ensures forall k :: 0 <= k < |r| ==> c !in r[k]
    decreases |s|
  {
    if s == "" then [""]
    else
      var rest := Split(s[1..], c);
      if s[0] == c then [""] + rest
      else [[s[0]] + rest[0]] + rest[1..]
  }

  /** `c.join(parts)`. */
  function Join(parts: seq<string>, c: char): string
    decreases |parts|
  {
    if |parts| == 0 then ""
    else if |parts| == 1 then parts[0]
    else parts[0] + [c] + Join(parts[1..], c)
  }

  /** Joining the pieces of a split gives the original text back. */
  lemma {:induction false} JoinSplit(s: string, c: char)
    ensures Join(Split(s, c), c) == s
    decreases |s|
  {
    if s != "" {
      JoinSplit(s[1..], c);
      var rest := Split(s[1..], c);
      if s[0] == c {
        assert Split(s, c) == [""] + rest;
        assert ([""] + rest)[1..] == rest;
      } else {
        var r := Split(s, c);
        assert r == [[s[0]] + rest[0]] + rest[1..];
        if |rest| == 1 {
          assert r == [[s[0]] + rest[0]];
        } else {
          assert r[1..] == rest[1..];
          assert Join(rest, c) == rest[0] + [c] + Join(rest[1..], c);
        }
      }
    }
  }

  /** Splitting text that holds no separator yields the text itself. */
  lemma {:induction false} SplitNoSeparator(s: string, c: char)
    requires c !in s
    ensures Split(s, c) == [s]
    decreases |s|
  {
    if s != "" {
      SplitNoSeparator(s[1..], c);
      assert [s[0]] + s[1..] == s;
    }
  }

  /** A leading separator-free piece followed by `c` splits off as one piece. */
  lemma {:induction false} SplitAfterPiece(a: string, c: char, b: string)
    requires c !in a
    ensures Split(a + [c] + b, c) == [a] + Split(b, c)
    decreases |a|
  {
    if a == "" {
      assert a + [c] + b == [c] + b;
      assert ([c] + b)[1..] == b;
    } else {
      SplitAfterPiece(a[1..], c, b);
      assert (a + [c] + b)[1..] == a[1..] + [c] + b;
      assert [a[0]] + a[1..] == a;
    }
  }

  /** Splitting a join of separator-free pieces gives the pieces back. */
  lemma {:induction false} SplitJoin(parts: seq<string>, c: char)
    requires |parts| >= 1
    requires forall k :: 0 <= k < |parts| ==> c !in parts[k]
    ensures Split(Join(parts, c), c) == parts
    decreases |parts|
  {
    if |parts| == 1 {
      SplitNoSeparator(parts[0], c);
    } else {
      SplitJoin(parts[1..], c);
      SplitAfterPiece(parts[0], c, Join(parts[1..], c));
      assert [parts[0]] + parts[1..] == parts;
    }
  }

  /** `s.partition(sep)`: the text before the first `sep`, the separator found, and the rest. */
  function Partition(s: string, sep: string): (r: (string, string, string))
    requires sep != ""
    ensures r.0 + r.1 + r.2 == s
    ensures forall j: nat :: j < |r.0| ==> !OccursAt(s, sep, j)
    ensures Contains(s, sep) ==> r.1 == sep && OccursAt(s, sep, |r.0|)
    ensures !Contains(s, sep) ==> r == (s, "", "")
  {
    match Find(s, sep)
    case None => (s, "", "")
    case Some(i) =>
      assert s == s[..i] + sep + s[i + |sep|..];
      (s[..i], sep, s[i + |sep|..])
  }

  /** `s.lstrip(chars)`. */
  function LStrip(s: string, chars: set<char>): (r: string)
    ensures |r| <= |s| && r == s[|s| - |r|..]
    ensures AllIn(s[..|s| - |r|], chars)
    ensures r == "" || r[0] !in chars
    decreases |s|
  {
    if s != "" && s[0] in chars then LStrip(s[1..], chars) else s
  }

  /** `s.rstrip(chars)`. */
  function RStrip(s: string, chars: set<char>): (r: string)
    ensures |r| <= |s| && r == s[..|r|]
    ensures AllIn(s[|r|..], chars)
    ensures r == "" || r[|r| - 1] !in chars
    decreases |s|
  {
    if s != "" && s[|s| - 1] in chars then RStrip(s[..|s| - 1], chars) else s
  }

  /** `s.strip(chars)`: removes characters of `chars` from both ends. */
  function Strip(s: string, chars: set<char>): (r: string)
    ensures |r| <= |s|
    ensures r == "" || (r[0] !in chars && r[|r| - 1] !in chars)
  {
    RStrip(LStrip(s, chars), chars)
  }

  /** Every character of `s` belongs to `chars`. */
  predicate AllIn(s: string, chars: set<char>) {
    forall k :: 0 <= k < |s| ==> s[k] in chars
  }

  /** LStrip removes exactly a leading run of stripped characters that ends before a kept one. */
  lemma {:induction false} LStripPadded(pre: string, rest: string, chars: set<char>)
    requires AllIn(pre, chars)
    requires rest != "" && rest[0] !in chars
    ensures LStrip(pre + rest, chars) == rest
    decreases |pre|
  {
    if pre == "" {
      assert pre + rest == rest;
    } else {
      assert (pre + rest)[0] == pre[0];
      assert (pre + rest)[1..] == pre[1..] + rest;
      LStripPadded(pre[1..], rest, chars);
    }
  }

  /** RStrip removes exactly a trailing run of stripped characters that starts after a kept one. */
  lemma {:induction false} RStripPadded(rest: string, post: string, chars: set<char>)
    requires AllIn(post, chars)
    requires rest != "" && rest[|rest| - 1] !in chars
    ensures RStrip(rest + post, chars) == rest
    decreases |post|
  {
    if post == "" {
      assert rest + post == rest;
    } else {
      var s := rest + post;
      var shorter := post[..|post| - 1];
      assert s[|s| - 1] == post[|post| - 1];
      assert s[..|s| - 1] == rest + shorter;
      assert AllIn(shorter, chars);
      RStripPadded(rest, shorter, chars);
    }
  }

  /** Strip keeps exactly the core between two runs of stripped characters. */
  lemma {:induction false} StripPadded(pre: string, core: string, post: string, chars: set<char>)
    requires AllIn(pre, chars) && AllIn(post, chars)
    requires core != "" && core[0] !in chars && core[|core| - 1] !in chars
    ensures Strip(pre + core + post, chars) == core
  {
    assert pre + core + post == pre + (core + post);
    LStripPadded(pre, core + post, chars);
    RStripPadded(core, post, chars);
  }

  /** Cutting `s` at `k` and the remainder at `m` gives three pieces that make up `s`. */
  lemma CutTwice(s: string, k: nat, m: nat)
    requires k + m <= |s|
    ensures s == s[..k] + s[k..][..m] + s[k..][m..]
  {
    assert s[k..] == s[k..][..m] + s[k..][m..];
    assert s == s[..k] + s[k..];
  }

  /** Whatever Strip returns is surrounded in `s` by stripped characters only. */
  lemma StripDecompose(s: string, chars: set<char>) returns (pre: string, post: string)
    ensures s == pre + Strip(s, chars) + post
    ensures AllIn(pre, chars) && AllIn(post, chars)
  {
    var l := LStrip(s, chars);
    var r := RStrip(l, chars);
    var k := |s| - |l|;
    pre := s[..k];
    post := l[|r|..];
    CutTwice(s, k, |r|);
  }
}

=== FILE: records.dfy ===
/**
 * What a publish writes. A published revision directory holds a copy of the
 * export's `export/` files, `conan_export.tgz` (an archive of
 * `conandata.yml`), `snapshot.json` (each artifact's MD5 digest, the v1
 * layout) and `files.json` (the artifact names, the v2 layout); the version's
 * `latest.json` then names that revision.
 *
 * File contents are bytes; the MD5 hex digest and the tar.gz archiver are
 * parameters, since only their results matter here.
 */
module Records {
  import opened Common
  import opened PosixPath
  import opened Reference
  import PyStr

  type Bytes = seq<bv8>

  /** The JSON values the tool writes: strings and objects. */
  datatype Json = JStr(s: string) | JObj(fields: map<string, Json>)

  const TgzName: string := "conan_export.tgz"
  const ManifestName: string := "conanmanifest.txt"
  const ConanfileName: string := "conanfile.py"
  const ConandataName: string := "conandata.yml"

  /** The three artifacts both manifests list. */
  const Artifacts: set<string> := {TgzName, ManifestName, ConanfileName}

  /** The files of a directory, by name; a name that is not a key does not exist. */
  type Tree = map<string, Bytes>

  /** A step with an effect outside the process, in the order the tool takes them. */
  datatype Action =
    | RemoveTree(path: string)               // `shutil.rmtree(path, ignore_errors=True)`
    | MakeDirs(path: string)                 // `os.makedirs(path)`
    | CopyTree(source: string, target: string)  // `shutil.copytree(source, target)`
    | Touch(path: string)                    // `tools.touch(path)`: creates an empty file
    | Save(path: string, text: string)       // `tools.save(path, text)`
    | ConanExport(home: string, path: string, reference: string)  // `conan export path reference` with `CONAN_USER_HOME=home`
    | WriteArchive(path: string, bytes: Bytes)  // the `conan_export.tgz` written by `tarfile`
    | WriteJson(path: string, json: Json)    // `json.dump` into the file at `path`
    | Commit(message: string)                // `git add .` and `git commit -m message`

  /** The `snapshot.json` map: each artifact name to the digest of that artifact's bytes. */
  function Snapshot(tgz: Bytes, manifest: Bytes, conanfile: Bytes, md5: Bytes -> string): (r: map<string, string>)
    ensures r.Keys == Artifacts
    ensures r[TgzName] == md5(tgz) && r[ManifestName] == md5(manifest) && r[ConanfileName] == md5(conanfile)
  {
    map[TgzName := md5(tgz), ManifestName := md5(manifest), ConanfileName := md5(conanfile)]
  }

  /** The `files.json` dictionary `{'files': {name: {}}}` over the artifacts. */
  function ArtifactListing(): (r: map<string, map<string, Json>>)
    ensures r.Keys == {"files"} && r["files"].Keys == Artifacts
    ensures forall name :: name in r["files"] ==> r["files"][name] == JObj(map[])
  {
    map["files" := map name | name in Artifacts :: JObj(map[])]
  }

  /** A string-valued dictionary as JSON. */
  function SnapshotJson(snapshot: map<string, string>): Json {
    JObj(map name | name in snapshot :: JStr(snapshot[name]))
  }

  /** A dictionary of dictionaries as JSON. */
  function FilesJson(files: map<string, map<string, Json>>): Json {
    JObj(map key | key in files :: JObj(files[key]))
  }

  /** Reading a JSON object back as a dictionary of strings; members that are not strings are skipped. */
  function StringMembers(j: Json): map<string, string> {
    if j.JObj? then map name | name in j.fields && j.fields[name].JStr? :: j.fields[name].s else map[]
  }

  /** Reading a JSON object back as a dictionary of dictionaries; members that are not objects are skipped. */
  function ObjectMembers(j: Json): map<string, map<string, Json>> {
    if j.JObj? then map key | key in j.fields && j.fields[key].JObj? :: j.fields[key].fields else map[]
  }

  /** Reading `snapshot.json` back gives the dictionary that was dumped: the file determines every digest. */
  lemma SnapshotJsonRoundTrip(snapshot: map<string, string>)
    ensures SnapshotJson(snapshot).JObj? && SnapshotJson(snapshot).fields.Keys == snapshot.Keys
    ensures StringMembers(SnapshotJson(snapshot)) == snapshot
  {
  }

  /** Reading `files.json` back gives the dictionary that was dumped. */
  lemma FilesJsonRoundTrip(files: map<string, map<string, Json>>)
    ensures FilesJson(files).JObj? && FilesJson(files).fields.Keys == files.Keys
    ensures ObjectMembers(FilesJson(files)) == files
  {
  }

  /** The v1 and v2 manifests of a published revision. */
  datatype Manifests = Manifests(snapshot: map<string, string>, files: map<string, map<string, Json>>)

  /**
   * Both manifests, built as `command_upload` builds them: one insertion into
   * each per artifact, reading the archive first and then the two recipe files
   * of `export/`. A recipe file that cannot be opened is an error.
   */
  method BuildManifests(tgz: Bytes, exported: Tree, md5: Bytes -> string) returns (r: Result<Manifests, Error>)
    ensures r.Ok? <==> ManifestName in exported && ConanfileName in exported
    ensures ManifestName !in exported ==> r == Err(MissingFile(ManifestName))
    ensures ManifestName in exported && ConanfileName !in exported ==> r == Err(MissingFile(ConanfileName))
    ensures r.Ok? ==> r.value.snapshot == Snapshot(tgz, exported[ManifestName], exported[ConanfileName], md5)
    ensures r.Ok? ==> r.value.files == ArtifactListing()
  {
    var snapshot: map<string, string> := map[];
    var files: map<string, map<string, Json>> := map["files" := map[]];
    snapshot := snapshot[TgzName := md5(tgz)];
    files := files["files" := files["files"][TgzName := JObj(map[])]];
    if ManifestName !in exported {
      return Err(MissingFile(ManifestName));
    }
    snapshot := snapshot[ManifestName := md5(exported[ManifestName])];
    files := files["files" := files["files"][ManifestName := JObj(map[])]];
    if ConanfileName !in exported {
      return Err(MissingFile(ConanfileName));
    }
    snapshot := snapshot[ConanfileName := md5(exported[ConanfileName])];
    files := files["files" := files["files"][ConanfileName := JObj(map[])]];
    assert files["files"] == ArtifactListing()["files"];
    return Ok(Manifests(snapshot, files));
  }

  /** The two manifests list the same names: every artifact with a digest is listed, and nothing else. */
  lemma ManifestsAgree(tgz: Bytes, manifest: Bytes, conanfile: Bytes, md5: Bytes -> string)
    ensures Snapshot(tgz, manifest, conanfile, md5).Keys == ArtifactListing()["files"].Keys
  {
  }

  /** The `latest.json` record: the published revision and the UTC time it was published. */
  function LatestJson(revision: string, now: string): (r: Json)
    ensures r.JObj? && r.fields.Keys == {"revision", "time"}
    ensures r.fields["revision"] == JStr(revision)
    ensures r.fields["time"] == JStr(now + "+0000")
  {
    JObj(map["revision" := JStr(revision), "time" := JStr(now + "+0000")])
  }

  /** The message of the publish commit: `Upload name/version revision rev.`. */
  function CommitMessage(nv: NameVersion, revision: string): (r: string)
    ensures |r| == |"Upload "| + |nv.name| + 1 + |nv.version| + |" revision "| + |revision| + 1
    ensures r[..7] == "Upload " && r[|r| - 1] == '.'
    ensures r[7..7 + |nv.name|] == nv.name && r[7 + |nv.name|] == '/'
  {
    "Upload " + nv.name + "/" + nv.version + " revision " + revision + "."
  }

  /** Two texts cut at their first `c` agree when the texts do. */
  lemma {:induction false} CutAtFirst(a: string, c: char, b: string, a': string, b': string)
    requires c !in a && c !in a' && a + [c] + b == a' + [c] + b'
    ensures a == a' && b == b'
  {
    PyStr.SplitFirstOf(a, c, b);
    PyStr.SplitFirstOf(a', c, b');
  }

  /** The commit message is the name, a '/', the version, a ' ' and the rest, between a fixed prefix and suffix. */
  lemma {:induction false} CommitMessageShape(nv: NameVersion, revision: string)
    ensures CommitMessage(nv, revision) == "Upload " + (nv.name + ['/'] + (nv.version + [' '] + ("revision " + revision))) + "."
  {
  }

  /**
   * The commit message identifies the upload: with a name free of '/' and a
   * version free of ' ', different uploads never share a message.
   */
  lemma {:induction false} CommitMessageInjective(a: NameVersion, ra: string, b: NameVersion, rb: string)
    requires '/' !in a.name && '/' !in b.name && ' ' !in a.version && ' ' !in b.version
    requires CommitMessage(a, ra) == CommitMessage(b, rb)
    ensures a == b && ra == rb
  {
    var tailA := a.version + [' '] + ("revision " + ra);
    var tailB := b.version + [' '] + ("revision " + rb);
    var bodyA := a.name + ['/'] + tailA;
    var bodyB := b.name + ['/'] + tailB;
    CommitMessageShape(a, ra);
    CommitMessageShape(b, rb);
    var m := CommitMessage(a, ra);
    assert bodyA == m[7..|m| - 1] == bodyB;
    CutAtFirst(a.name, '/', tailA, b.name, tailB);
    CutAtFirst(a.version, ' ', "revision " + ra, b.version, "revision " + rb);
    assert ra == ("revision " + ra)[9..];
    assert rb == ("revision " + rb)[9..];
  }

  /** The export's `export/` directory holds all three files a publish reads. */
  predicate Publishable(tree: Tree) {
    ConandataName in tree && ManifestName in tree && ConanfileName in tree
  }

  /** Where a publish reads and writes, apart from the revision directory itself. */
  datatype PublishPaths = PublishPaths(
    source: string,     // the export's `export/` directory
    files: string,      // the revision's `files/` directory, a copy of `source`
    tgz: string,        // `files/conan_export.tgz`
    snapshot: string,   // the revision's `snapshot.json`
    filesJson: string,  // the revision's `files.json`
    latest: string)     // the version's `latest.json`

  /** The paths `command_upload` joins from the export, publish and revision directories. */
  function PublishPathsFor(exportDir: string, publishDir: string, revisionDir: string): PublishPaths {
    var files := Join(revisionDir, "files");
    PublishPaths(Join(exportDir, "export"), files, Join(files, TgzName),
                 Join(revisionDir, "snapshot.json"), Join(revisionDir, "files.json"), Join(publishDir, "latest.json"))
  }

  /**
   * With clean components, everything a publish writes lies inside the
   * revision directory, except `latest.json`, which lies beside it.
   */
  lemma PublishPathsLayout(exportDir: string, publishDir: string, revision: string)
    requires IsBase(exportDir) && IsBase(publishDir) && IsName(revision)
    ensures var rd := Join(publishDir, revision);
      var p := PublishPathsFor(exportDir, publishDir, rd);
      && p.source == exportDir + "/" + "export"
      && p.files == rd + "/" + "files"
      && p.tgz == rd + "/" + "files" + "/" + TgzName
      && p.snapshot == rd + "/" + "snapshot.json"
      && p.filesJson == rd + "/" + "files.json"
      && p.latest == publishDir + "/" + "latest.json"
      && Dirname(p.latest) == Dirname(rd)
  {
    var rd := Join(publishDir, revision);
    JoinName(publishDir, revision);
    JoinName(exportDir, "export");
    var files := Join(rd, "files");
    JoinName(rd, "files");
    JoinName(files, TgzName);
    JoinName(rd, "snapshot.json");
    JoinName(rd, "files.json");
    JoinName(publishDir, "latest.json");
    DirnameOfJoin(publishDir, revision);
    DirnameOfJoin(publishDir, "latest.json");
  }

  /**
   * The `try` block of `command_upload`, from clearing the revision directory
   * to the commit. `trees` holds the contents of each existing directory by
   * path. A failing step ends the publish with its error, after the steps
   * before it took effect.
   */
  method Publish(paths: PublishPaths, revisionDir: string, nv: NameVersion, revision: string,
                 trees: map<string, Tree>, now: string, md5: Bytes -> string, archive: (string, Bytes) -> Bytes)
    returns (actions: seq<Action>, outcome: Outcome)
    ensures outcome.Pass? <==> paths.source in trees && Publishable(trees[paths.source])
    ensures paths.source !in trees ==> outcome == Fail(MissingExportDir)
    ensures paths.source in trees && ConandataName !in trees[paths.source] ==> outcome == Fail(MissingFile(ConandataName))
    ensures outcome.Fail? ==> forall i :: 0 <= i < |actions| ==> !actions[i].WriteJson? && !actions[i].Commit?
    ensures outcome.Pass? ==>
      var source := trees[paths.source];
      var tgz := archive(ConandataName, source[ConandataName]);
      actions == [
        RemoveTree(revisionDir),
        MakeDirs(revisionDir),
        CopyTree(paths.source, paths.files),
        WriteArchive(paths.tgz, tgz),
        WriteJson(paths.snapshot, SnapshotJson(Snapshot(tgz, source[ManifestName], source[ConanfileName], md5))),
        WriteJson(paths.filesJson, FilesJson(ArtifactListing())),
        WriteJson(paths.latest, LatestJson(revision, now)),
        Commit(CommitMessage(nv, revision))]
  {
    actions := [RemoveTree(revisionDir), MakeDirs(revisionDir)];
    if paths.source !in trees {
      return actions, Fail(MissingExportDir);
    }
    var source := trees[paths.source];
    actions := actions + [CopyTree(paths.source, paths.files)];
    if ConandataName !in source {
      return actions, Fail(MissingFile(ConandataName));
    }
    var tgz := archive(ConandataName, source[ConandataName]);
    actions := actions + [WriteArchive(paths.tgz, tgz)];
    var manifests := BuildManifests(tgz, source, md5);
    if manifests.Err? {
      return actions, Fail(manifests.error);
    }
    actions := actions + [
      WriteJson(paths.snapshot, SnapshotJson(manifests.value.snapshot)),
      WriteJson(paths.filesJson, FilesJson(manifests.value.files))];
    actions := actions + [WriteJson(paths.latest, LatestJson(revision, now))];
    actions := actions + [Commit(CommitMessage(nv, revision))];
    return actions, Pass;
  }
}

=== FILE: reference.dfy ===
/**
 * Reading a `Pkg/version@user/channel` reference. The text before the first
 * '@' may override the name and version that `conan inspect` reports; the
 * text after it gives the user and channel, each defaulting to "_".
 */
module Reference {
  import opened Common
  import opened PyStr

  datatype NameVersion = NameVersion(name: string, version: string)

  datatype UserChannel = UserChannel(user: string, channel: string)

  /** The value put in place of a missing or empty user or channel. */
  const Unset: string := "_"

  /** `reference.split('@', 1)[0].split('/')`; indexing `[0]` never fails. */
  function NameVersionParts(reference: string): (r: seq<string>)
    ensures |r| >= 1
    ensures forall k :: 0 <= k < |r| ==> '/' !in r[k]
  {
    Split(SplitFirst(reference, '@')[0], '/')
  }

  /**
   * The name and version the recipe ends up with. `inspected` is what
   * `conan inspect` printed, or None when there is no recipe directory and
   * so no inspection; a name or version that nothing assigned is an error.
   */
  function ResolveNameVersion(reference: string, inspected: Option<NameVersion>): (r: Result<NameVersion, Error>)
    ensures r.Err? <==> inspected.None? && |NameVersionParts(reference)| != 2
    ensures r.Err? ==> r.error == UnboundNameOrVersion
    ensures inspected.None? && r.Ok? ==> '/' !in r.value.name && '/' !in r.value.version
  {
    var parts := NameVersionParts(reference);
    var name: Option<string> := if inspected.Some? then Some(inspected.value.name) else None;
    var version: Option<string> := if inspected.Some? then Some(inspected.value.version) else None;
    var (name', version') :=
      if |parts| == 1 then (name, Some(parts[0]))
      else if |parts| == 2 then (Some(parts[0]), Some(parts[1]))
      else (name, version);
    if name'.Some? && version'.Some? then Ok(NameVersion(name'.value, version'.value))
    else Err(UnboundNameOrVersion)
  }

  /** `reference.split('@', 1)[1].split('/')`, defaulting each of the first two components to "_". */
  function ParseUserChannel(reference: string): (r: Result<UserChannel, Error>)
    ensures r.Err? <==> '@' !in reference
    ensures r.Err? ==> r.error == NoUserChannel
    ensures r.Ok? ==> r.value.user != "" && '/' !in r.value.user
    ensures r.Ok? ==> r.value.channel != "" && '/' !in r.value.channel
  {
    var at := SplitFirst(reference, '@');
    if |at| < 2 then Err(NoUserChannel)
    else
      var uc := Split(at[1], '/');
      var user := if |uc| > 0 && |uc[0]| > 0 then uc[0] else Unset;
      var channel := if |uc| > 1 && |uc[1]| > 0 then uc[1] else Unset;
      Ok(UserChannel(user, channel))
  }

  /** A component as it comes out of the parse: the empty string reads as "_". */
  function OrUnset(s: string): string {
    if s == "" then Unset else s
  }

  /** The two-component form names both the package and its version, whatever the inspection says. */
  lemma {:induction false} FullFormOverrides(name: string, version: string, rest: string, inspected: Option<NameVersion>)
    requires '@' !in name && '@' !in version && '/' !in name && '/' !in version
    ensures ResolveNameVersion(name + "/" + version + "@" + rest, inspected) == Ok(NameVersion(name, version))
  {
    var nv := name + "/" + version;
    assert '@' !in nv;
    assert name + "/" + version + "@" + rest == nv + ['@'] + rest;
    SplitFirstOf(nv, '@', rest);
    assert nv == Join([name, version], '/');
    SplitJoin([name, version], '/');
  }

  /** A single component before '@' replaces the version only; the name must come from the inspection. */
  lemma {:induction false} SingleFormOverridesVersion(version: string, rest: string, inspected: Option<NameVersion>)
    requires '@' !in version && '/' !in version
    ensures inspected.Some? ==> ResolveNameVersion(version + "@" + rest, inspected) == Ok(NameVersion(inspected.value.name, version))
    ensures inspected.None? ==> ResolveNameVersion(version + "@" + rest, inspected) == Err(UnboundNameOrVersion)
  {
    assert version + "@" + rest == version + ['@'] + rest;
    SplitFirstOf(version, '@', rest);
    SplitNoSeparator(version, '/');
  }

  /** Three or more components before '@' change nothing: the inspected values stand, or are unbound. */
  lemma {:induction false} LongFormKeepsInspected(parts: seq<string>, rest: string, inspected: Option<NameVersion>)
    requires |parts| >= 3
    requires forall k :: 0 <= k < |parts| ==> '/' !in parts[k] && '@' !in parts[k]
    ensures inspected.Some? ==> ResolveNameVersion(Join(parts, '/') + "@" + rest, inspected) == Ok(inspected.value)
    ensures inspected.None? ==> ResolveNameVersion(Join(parts, '/') + "@" + rest, inspected) == Err(UnboundNameOrVersion)
  {
    var head := Join(parts, '/');
    NoSeparatorInJoin(parts, '/', '@');
    assert head + "@" + rest == head + ['@'] + rest;
    SplitFirstOf(head, '@', rest);
    SplitJoin(parts, '/');
  }

  /** A join of pieces free of `d` is free of `d` when `d` is not the joining character. */
  lemma {:induction false} NoSeparatorInJoin(parts: seq<string>, c: char, d: char)
    requires c != d
    requires forall k :: 0 <= k < |parts| ==> d !in parts[k]
    ensures d !in Join(parts, c)
    decreases |parts|
  {
    if |parts| > 1 {
      NoSeparatorInJoin(parts[1..], c, d);
    }
  }

  /**
   * After the first '@': the first two '/'-components give user and channel,
   * an empty one reads as "_", and any further components are ignored.
   */
  lemma {:induction false} UserChannelComponents(head: string, user: string, channel: string, extra: seq<string>)
    requires '@' !in head && '/' !in user && '/' !in channel
    requires forall k :: 0 <= k < |extra| ==> '/' !in extra[k]
    ensures ParseUserChannel(head + "@" + Join([user, channel] + extra, '/')) == Ok(UserChannel(OrUnset(user), OrUnset(channel)))
  {
    var parts := [user, channel] + extra;
    var tail := Join(parts, '/');
    assert head + "@" + tail == head + ['@'] + tail;
    SplitFirstOf(head, '@', tail);
    assert forall k :: 0 <= k < |parts| ==> '/' !in parts[k] by {
      forall k | 0 <= k < |parts| ensures '/' !in parts[k] {
        if k >= 2 { assert parts[k] == extra[k - 2]; }
      }
    }
    SplitJoin(parts, '/');
  }

  /** With a single component after '@', the channel defaults to "_". */
  lemma {:induction false} UserOnly(head: string, user: string)
    requires '@' !in head && '/' !in user
    ensures ParseUserChannel(head + "@" + user) == Ok(UserChannel(OrUnset(user), Unset))
  {
    assert head + "@" + user == head + ['@'] + user;
    SplitFirstOf(head, '@', user);
    SplitNoSeparator(user, '/');
  }

  /** The text form of a full coordinate. */
  function Render(nv: NameVersion, uc: UserChannel): string {
    nv.name + "/" + nv.version + "@" + uc.user + "/" + uc.channel
  }

  /** Parsing the text form of a coordinate gives the coordinate back. */
  lemma {:induction false} ParseRender(nv: NameVersion, uc: UserChannel, inspected: Option<NameVersion>)
    requires '@' !in nv.name && '@' !in nv.version && '/' !in nv.name && '/' !in nv.version
    requires uc.user != "" && uc.channel != "" && '/' !in uc.user && '/' !in uc.channel
    ensures ResolveNameVersion(Render(nv, uc), inspected) == Ok(nv)
    ensures ParseUserChannel(Render(nv, uc)) == Ok(uc)
  {
    var tail := uc.user + "/" + uc.channel;
    assert Render(nv, uc) == nv.name + "/" + nv.version + "@" + tail;
    FullFormOverrides(nv.name, nv.version, tail, inspected);
    assert Join([uc.user, uc.channel] + [], '/') == tail;
    UserChannelComponents(nv.name + "/" + nv.version, uc.user, uc.channel, []);
  }
}

=== FILE: state.dfy ===
/**
 * The lazily computed state of the `Barbarian` object, as values. Each
 * property setter first forces the setters it depends on, then fills its own
 * field, but only while that field is falsy: the first arguments to reach a
 * setter decide its value for the rest of the run.
 *
 * A setter here is a function from the cache before to the cache after, and
 * an outcome that is `Fail` when the source raises.
 */
module State {
  import opened Common
  import opened Reference
  import opened Layout
  import opened GitRepo
  import opened PosixPath

  /**
   * The parsed command line. `path` is `os.path.abspath(args.path)`, or None
   * for a command without a path argument (`upload`).
   */
  datatype Args = Args(path: Option<string>, reference: string)

  /**
   * What the setters learn from outside the process: the working directory,
   * the directories holding `.git`, what `conan inspect` reports for the
   * recipe, and the revision recorded in each `metadata.json`, by path.
   */
  datatype Env = Env(cwd: string, gitDirs: set<string>, inspected: NameVersion, revisions: map<string, string>)

  /** The backing fields `_recipe_dir` … `_recipe_revision_pub_dir`; None is Python's None. */
  datatype Cache = Cache(
    recipeDir: Option<string>,
    rootDir: Option<string>,
    nameAndVersion: Option<NameVersion>,
    dataDir: Option<string>,
    userAndChannel: Option<UserChannel>,
    exportDir: Option<string>,
    publishDir: Option<string>,
    exportedRevision: Option<string>,
    revisionPubDir: Option<string>)

  /** The state of a new object: every backing field is None. */
  const Fresh: Cache := Cache(None, None, None, None, None, None, None, None, None)

  /** The cache after a setter, and whether the setter raised. */
  datatype Step = Step(cache: Cache, outcome: Outcome)

  /** Python truthiness of an optional string: neither None nor "". */
  predicate Truthy(s: Option<string>) {
    s.Some? && s.value != ""
  }

  /**
   * No field that held a truthy value changes, and no field that was set is
   * cleared. The two list-valued fields, `[name, version]` and
   * `[user, channel]`, are truthy as soon as they are set.
   */
  predicate SetOnce(before: Cache, after: Cache) {
    && Kept(before, after)
    && (Truthy(before.recipeDir) ==> after.recipeDir == before.recipeDir)
    && (Truthy(before.rootDir) ==> after.rootDir == before.rootDir)
    && (before.nameAndVersion.Some? ==> after.nameAndVersion == before.nameAndVersion)
    && (Truthy(before.dataDir) ==> after.dataDir == before.dataDir)
    && (before.userAndChannel.Some? ==> after.userAndChannel == before.userAndChannel)
    && (Truthy(before.exportDir) ==> after.exportDir == before.exportDir)
    && (Truthy(before.publishDir) ==> after.publishDir == before.publishDir)
    && (Truthy(before.exportedRevision) ==> after.exportedRevision == before.exportedRevision)
    && (Truthy(before.revisionPubDir) ==> after.revisionPubDir == before.revisionPubDir)
  }

  /** Every field that holds a value still holds one. */
  predicate Kept(before: Cache, after: Cache) {
    && (before.recipeDir.Some? ==> after.recipeDir.Some?)
    && (before.rootDir.Some? ==> after.rootDir.Some?)
    && (before.dataDir.Some? ==> after.dataDir.Some?)
    && (before.exportDir.Some? ==> after.exportDir.Some?)
    && (before.publishDir.Some? ==> after.publishDir.Some?)
    && (before.exportedRevision.Some? ==> after.exportedRevision.Some?)
    && (before.revisionPubDir.Some? ==> after.revisionPubDir.Some?)
  }

  /** The directory the search for `.git` starts from: the recipe directory, else the working directory. */
  function SearchStart(c: Cache, env: Env): string {
    if Truthy(c.recipeDir) then c.recipeDir.value else env.cwd
  }

  /** The inspection that is available: only a recipe directory can be inspected. */
  function Inspection(c: Cache, env: Env): Option<NameVersion> {
    if Truthy(c.recipeDir) then Some(env.inspected) else None
  }

  /** `recipe_dir = args`: set from the path argument, when there is one and the field is falsy. */
  function SetRecipeDir(c: Cache, args: Args): (r: Cache)
    ensures SetOnce(c, r)
    ensures r == c.(recipeDir := r.recipeDir)
    ensures args.path.Some? ==> r.recipeDir.Some?
    ensures !Truthy(c.recipeDir) && args.path.Some? ==> r.recipeDir == args.path
  {
    if !Truthy(c.recipeDir) && args.path.Some? then c.(recipeDir := args.path) else c
  }

  /** `root_dir = args`: the nearest directory holding `.git`, from the recipe directory or else the working one. */
  function SetRootDir(c: Cache, args: Args, env: Env): (r: Step)
    ensures SetOnce(c, r.cache)
    ensures r.cache == c.(recipeDir := r.cache.recipeDir, rootDir := r.cache.rootDir)
    ensures r.outcome.Fail? <==> !Truthy(c.rootDir) && RepoRoot(SearchStart(r.cache, env), env.gitDirs).None?
    ensures r.outcome.Fail? ==> r.outcome.error == NoRepositoryRoot
    ensures r.outcome.Pass? && !Truthy(c.rootDir) ==> r.cache.rootDir == RepoRoot(SearchStart(r.cache, env), env.gitDirs)
    ensures r.outcome.Pass? ==> r.cache.rootDir.Some?
  {
    var c1 := SetRecipeDir(c, args);
    if Truthy(c1.rootDir) then Step(c1, Pass)
    else
      match RepoRoot(SearchStart(c1, env), env.gitDirs)
      case None => Step(c1, Fail(NoRepositoryRoot))
      case Some(root) => Step(c1.(rootDir := Some(root)), Pass)
  }

  /**
   * `recipe_name_and_version = args`: the reference's override of the
   * inspected name and version, computed once.
   */
  function SetNameAndVersion(c: Cache, args: Args, env: Env): (r: Step)
    ensures SetOnce(c, r.cache)
    ensures r.outcome.Pass? ==> r.cache.rootDir.Some? && r.cache.nameAndVersion.Some?
    ensures r.outcome.Fail? ==> r.outcome.error in {NoRepositoryRoot, UnboundNameOrVersion}
  {
    var c1 := SetRecipeDir(c, args);
    var s := SetRootDir(c1, args, env);
    if s.outcome.Fail? || s.cache.nameAndVersion.Some? then s
    else
      match ResolveNameVersion(args.reference, Inspection(s.cache, env))
      case Err(e) => Step(s.cache, Fail(e))
      case Ok(nv) => Step(s.cache.(nameAndVersion := Some(nv)), Pass)
  }

  /** `recipe_data_dir = args`: `root/.conan/data/name/version`. */
  function SetDataDir(c: Cache, args: Args, env: Env): (r: Step)
    ensures SetOnce(c, r.cache)
    ensures r.outcome.Pass? ==> r.cache.rootDir.Some? && r.cache.nameAndVersion.Some? && r.cache.dataDir.Some?
  {
    var s1 := SetRootDir(c, args, env);
    if s1.outcome.Fail? then s1
    else
      var s2 := SetNameAndVersion(s1.cache, args, env);
      if s2.outcome.Fail? || Truthy(s2.cache.dataDir) then s2
      else Step(s2.cache.(dataDir := Some(DataDir(s2.cache.rootDir.value, s2.cache.nameAndVersion.value))), Pass)
  }

  /** `recipe_user_and_channel = args`: parsed from the text after the first '@', computed once. */
  function SetUserAndChannel(c: Cache, args: Args): (r: Step)
    ensures SetOnce(c, r.cache)
    ensures r.cache == c.(userAndChannel := r.cache.userAndChannel)
    ensures r.outcome.Fail? <==> c.userAndChannel.None? && ParseUserChannel(args.reference).Err?
    ensures r.outcome.Pass? ==> r.cache.userAndChannel.Some?
  {
    if c.userAndChannel.Some? then Step(c, Pass)
    else
      match ParseUserChannel(args.reference)
      case Err(e) => Step(c, Fail(e))
      case Ok(uc) => Step(c.(userAndChannel := Some(uc)), Pass)
  }

  /** `recipe_export_dir = args`: the data directory extended by user and channel. */
  function SetExportDir(c: Cache, args: Args, env: Env): (r: Step)
    ensures SetOnce(c, r.cache)
    ensures r.outcome.Pass? ==> r.cache.dataDir.Some? && r.cache.userAndChannel.Some? && r.cache.exportDir.Some?
  {
    var s1 := SetDataDir(c, args, env);
    if s1.outcome.Fail? then s1
    else
      var s2 := SetUserAndChannel(s1.cache, args);
      if s2.outcome.Fail? || Truthy(s2.cache.exportDir) then s2
      else Step(s2.cache.(exportDir := Some(ExportDir(s2.cache.dataDir.value, s2.cache.userAndChannel.value))), Pass)
  }

  /** `recipe_publish_dir = args`: `root/.barbarian_upload/name/version`. */
  function SetPublishDir(c: Cache, args: Args, env: Env): (r: Step)
    ensures SetOnce(c, r.cache)
    ensures r.outcome.Pass? ==> r.cache.rootDir.Some? && r.cache.nameAndVersion.Some? && r.cache.publishDir.Some?
  {
    var s1 := SetRootDir(c, args, env);
    if s1.outcome.Fail? then s1
    else
      var s2 := SetNameAndVersion(s1.cache, args, env);
      if s2.outcome.Fail? || Truthy(s2.cache.publishDir) then s2
      else Step(s2.cache.(publishDir := Some(PublishDir(s2.cache.rootDir.value, s2.cache.nameAndVersion.value))), Pass)
  }

  /** `recipe_exported_revision = args`: the revision recorded in the export's `metadata.json`. */
  function SetExportedRevision(c: Cache, args: Args, env: Env): (r: Step)
    ensures SetOnce(c, r.cache)
    ensures r.outcome.Pass? ==> r.cache.exportDir.Some? && r.cache.exportedRevision.Some?
  {
    var s1 := SetExportDir(c, args, env);
    if s1.outcome.Fail? || Truthy(s1.cache.exportedRevision) then s1
    else
      var metadata := MetadataPath(s1.cache.exportDir.value);
      if metadata in env.revisions then Step(s1.cache.(exportedRevision := Some(env.revisions[metadata])), Pass)
      else Step(s1.cache, Fail(MissingMetadata))
  }

  /** `recipe_revision_pub_dir = args`: the publish directory extended by the exported revision. */
  function SetRevisionPubDir(c: Cache, args: Args, env: Env): (r: Step)
    ensures SetOnce(c, r.cache)
    ensures r.outcome.Pass? ==> r.cache.publishDir.Some? && r.cache.exportedRevision.Some? && r.cache.revisionPubDir.Some?
  {
    var s1 := SetPublishDir(c, args, env);
    if s1.outcome.Fail? then s1
    else
      var s2 := SetExportedRevision(s1.cache, args, env);
      if s2.outcome.Fail? || Truthy(s2.cache.revisionPubDir) then s2
      else Step(s2.cache.(revisionPubDir := Some(RevisionDir(s2.cache.publishDir.value, s2.cache.exportedRevision.value))), Pass)
  }

  /** Set-once is transitive, so it holds across a chain of setters. */
  lemma SetOnceChain(a: Cache, b: Cache, c: Cache)
    requires SetOnce(a, b) && SetOnce(b, c)
    ensures SetOnce(a, c)
  {
  }

  /** The state `command_export` computes before it touches the disk. */
  function ExportState(c: Cache, args: Args, env: Env): (r: Step)
    ensures SetOnce(c, r.cache)
    ensures r.outcome.Pass? ==> r.cache.rootDir.Some? && r.cache.dataDir.Some? && r.cache.exportDir.Some?
  {
    var s1 := SetRootDir(c, args, env);
    if s1.outcome.Fail? then s1
    else
      var s2 := SetDataDir(s1.cache, args, env);
      SetOnceChain(c, s1.cache, s2.cache);
      if s2.outcome.Fail? then s2
      else
        var s3 := SetExportDir(s2.cache, args, env);
        SetOnceChain(c, s2.cache, s3.cache);
        s3
  }

  /** The state `command_upload` computes before it touches the disk. */
  function UploadState(c: Cache, args: Args, env: Env): (r: Step)
    ensures SetOnce(c, r.cache)
    ensures r.outcome.Pass? ==>
      && r.cache.exportDir.Some? && r.cache.exportedRevision.Some? && r.cache.publishDir.Some?
      && r.cache.revisionPubDir.Some? && r.cache.nameAndVersion.Some?
      && r.cache.rootDir.Some? && r.cache.dataDir.Some? && r.cache.userAndChannel.Some?
  {
    var s1 := SetExportDir(c, args, env);
    if s1.outcome.Fail? then s1
    else
      var s2 := SetExportedRevision(s1.cache, args, env);
      SetOnceChain(c, s1.cache, s2.cache);
      if s2.outcome.Fail? then s2
      else
        var s3 := SetPublishDir(s2.cache, args, env);
        SetOnceChain(c, s2.cache, s3.cache);
        if s3.outcome.Fail? then s3
        else
          var s4 := SetRevisionPubDir(s3.cache, args, env);
          SetOnceChain(c, s3.cache, s4.cache);
          if s4.outcome.Fail? then s4
          else
            var s5 := SetNameAndVersion(s4.cache, args, env);
            SetOnceChain(c, s4.cache, s5.cache);
            s5
  }

  /** The coordinates and cache paths a run settles on. */
  datatype Context = Context(root: string, nv: NameVersion, uc: UserChannel, dataDir: string, exportDir: string)

  /** The publish coordinates an upload settles on, on top of its export coordinates. */
  datatype Publication = Publication(exported: Context, revision: string, publishDir: string, revisionDir: string)

  /** The export coordinates, derived in one pass from the root, the reference and the inspection. */
  function ContextOf(root: string, reference: string, inspected: Option<NameVersion>): Result<Context, Error> {
    match ResolveNameVersion(reference, inspected)
    case Err(e) => Err(e)
    case Ok(nv) =>
      match ParseUserChannel(reference)
      case Err(e) => Err(e)
      case Ok(uc) => Ok(Context(root, nv, uc, DataDir(root, nv), ExportDir(DataDir(root, nv), uc)))
  }

  /** What `export PATH REFERENCE` settles on: the recipe directory is searched upward and inspected. */
  function ExportContext(path: string, reference: string, env: Env): (r: Result<Context, Error>)
    ensures r.Ok? <==> RepoRoot(path, env.gitDirs).Some? && '@' in reference
    ensures RepoRoot(path, env.gitDirs).None? ==> r == Err(NoRepositoryRoot)
  {
    match RepoRoot(path, env.gitDirs)
    case None => Err(NoRepositoryRoot)
    case Some(root) => ContextOf(root, reference, Some(env.inspected))
  }

  /** What `upload REFERENCE` settles on: the working directory is searched upward and nothing is inspected. */
  function UploadContext(reference: string, env: Env): (r: Result<Publication, Error>)
    ensures r.Ok? ==> |NameVersionParts(reference)| == 2 && '@' in reference
    ensures RepoRoot(env.cwd, env.gitDirs).None? ==> r == Err(NoRepositoryRoot)
    ensures r.Ok? <==>
      && RepoRoot(env.cwd, env.gitDirs).Some?
      && |NameVersionParts(reference)| == 2
      && '@' in reference
      && var parts := NameVersionParts(reference);
         var dataDir := DataDir(RepoRoot(env.cwd, env.gitDirs).value, NameVersion(parts[0], parts[1]));
         MetadataPath(ExportDir(dataDir, ParseUserChannel(reference).value)) in env.revisions
    ensures RepoRoot(env.cwd, env.gitDirs).Some? && |NameVersionParts(reference)| != 2 ==> r == Err(UnboundNameOrVersion)
    ensures RepoRoot(env.cwd, env.gitDirs).Some? && |NameVersionParts(reference)| == 2 && '@' !in reference ==> r == Err(NoUserChannel)
    ensures r.Err? && RepoRoot(env.cwd, env.gitDirs).Some? && |NameVersionParts(reference)| == 2 && '@' in reference ==> r == Err(MissingMetadata)
    ensures r.Ok? ==> MetadataPath(r.value.exported.exportDir) in env.revisions
    ensures r.Ok? ==> r.value.revision == env.revisions[MetadataPath(r.value.exported.exportDir)]
  {
    match RepoRoot(env.cwd, env.gitDirs)
    case None => Err(NoRepositoryRoot)
    case Some(root) =>
      match ContextOf(root, reference, None)
      case Err(e) => Err(e)
      case Ok(ctx) =>
        var metadata := MetadataPath(ctx.exportDir);
        if metadata !in env.revisions then Err(MissingMetadata)
        else
          var revision := env.revisions[metadata];
          var publishDir := PublishDir(root, ctx.nv);
          Ok(Publication(ctx, revision, publishDir, RevisionDir(publishDir, revision)))
  }

  /** Once the root is cached and the recipe directory can no longer change, `root_dir = args` changes nothing. */
  lemma RootDirCached(c: Cache, args: Args, env: Env)
    requires Truthy(c.rootDir) && SetRecipeDir(c, args) == c
    ensures SetRootDir(c, args, env) == Step(c, Pass)
  {
  }

  /** With root, name and version cached, `recipe_name_and_version = args` and `recipe_data_dir = args` change nothing. */
  lemma DataDirCached(c: Cache, args: Args, env: Env)
    requires Truthy(c.rootDir) && SetRecipeDir(c, args) == c
    requires c.nameAndVersion.Some? && Truthy(c.dataDir)
    ensures SetNameAndVersion(c, args, env) == Step(c, Pass)
    ensures SetDataDir(c, args, env) == Step(c, Pass)
  {
    RootDirCached(c, args, env);
  }

  /** The first `recipe_data_dir = args` on a cache that holds only the recipe directory and the root. */
  lemma DataDirFirst(c: Cache, args: Args, env: Env)
    requires Truthy(c.rootDir) && SetRecipeDir(c, args) == c
    requires c.nameAndVersion.None? && c.dataDir.None?
    ensures ResolveNameVersion(args.reference, Inspection(c, env)).Err? ==>
      SetDataDir(c, args, env) == Step(c, Fail(ResolveNameVersion(args.reference, Inspection(c, env)).error))
    ensures ResolveNameVersion(args.reference, Inspection(c, env)).Ok? ==>
      var nv := ResolveNameVersion(args.reference, Inspection(c, env)).value;
      SetDataDir(c, args, env) == Step(c.(nameAndVersion := Some(nv), dataDir := Some(DataDir(c.rootDir.value, nv))), Pass)
  {
    RootDirCached(c, args, env);
  }

  /** The first `recipe_export_dir = args` on a cache whose data directory is already computed. */
  lemma ExportDirFirst(c: Cache, args: Args, env: Env)
    requires Truthy(c.rootDir) && SetRecipeDir(c, args) == c
    requires c.nameAndVersion.Some? && Truthy(c.dataDir)
    requires c.userAndChannel.None? && c.exportDir.None?
    ensures ParseUserChannel(args.reference).Err? ==>
      SetExportDir(c, args, env) == Step(c, Fail(ParseUserChannel(args.reference).error))
    ensures ParseUserChannel(args.reference).Ok? ==>
      var uc := ParseUserChannel(args.reference).value;
      SetExportDir(c, args, env) == Step(c.(userAndChannel := Some(uc), exportDir := Some(ExportDir(c.dataDir.value, uc))), Pass)
  {
    DataDirCached(c, args, env);
  }

  /** With the export directory and its prerequisites cached, `recipe_export_dir = args` changes nothing. */
  lemma ExportDirCached(c: Cache, args: Args, env: Env)
    requires Truthy(c.rootDir) && SetRecipeDir(c, args) == c
    requires c.nameAndVersion.Some? && Truthy(c.dataDir)
    requires c.userAndChannel.Some? && Truthy(c.exportDir)
    ensures SetExportDir(c, args, env) == Step(c, Pass)
  {
    DataDirCached(c, args, env);
  }

  /** `recipe_exported_revision = args` reads the revision from the cached export directory's `metadata.json`. */
  lemma ExportedRevisionFrom(c: Cache, args: Args, env: Env)
    requires Truthy(c.rootDir) && SetRecipeDir(c, args) == c
    requires c.nameAndVersion.Some? && Truthy(c.dataDir)
    requires c.userAndChannel.Some? && Truthy(c.exportDir)
    requires c.exportedRevision.None? || c.exportedRevision == Some(Lookup(c, env))
    ensures MetadataPath(c.exportDir.value) !in env.revisions && c.exportedRevision.None? ==>
      SetExportedRevision(c, args, env) == Step(c, Fail(MissingMetadata))
    ensures MetadataPath(c.exportDir.value) in env.revisions ==>
      SetExportedRevision(c, args, env) == Step(c.(exportedRevision := Some(Lookup(c, env))), Pass)
  {
    ExportDirCached(c, args, env);
  }

  /** The revision recorded for the cached export directory, or "" when there is none. */
  function Lookup(c: Cache, env: Env): string
    requires c.exportDir.Some?
  {
    var metadata := MetadataPath(c.exportDir.value);
    if metadata in env.revisions then env.revisions[metadata] else ""
  }

  /** `recipe_publish_dir = args` on a cache holding the root, name and version. */
  lemma PublishDirFrom(c: Cache, args: Args, env: Env)
    requires Truthy(c.rootDir) && SetRecipeDir(c, args) == c && c.nameAndVersion.Some?
    requires c.publishDir.None? || Truthy(c.publishDir)
    ensures c.publishDir.None? ==>
      SetPublishDir(c, args, env) == Step(c.(publishDir := Some(PublishDir(c.rootDir.value, c.nameAndVersion.value))), Pass)
    ensures c.publishDir.Some? ==> SetPublishDir(c, args, env) == Step(c, Pass)
  {
    RootDirCached(c, args, env);
    assert SetNameAndVersion(c, args, env) == Step(c, Pass);
  }

  /**
   * From a new object, the three setters of `command_export` fail exactly
   * when the one-pass derivation does, with the same error, and otherwise
   * leave the cache holding exactly its coordinates.
   */
  lemma ExportStateMatchesContext(path: string, reference: string, env: Env)
    requires IsAbs(path)
    ensures ExportState(Fresh, Args(Some(path), reference), env).outcome.Pass? <==> ExportContext(path, reference, env).Ok?
    ensures ExportContext(path, reference, env).Err? ==>
      ExportState(Fresh, Args(Some(path), reference), env).outcome == Fail(ExportContext(path, reference, env).error)
    ensures ExportContext(path, reference, env).Ok? ==>
      var ctx := ExportContext(path, reference, env).value;
      ExportState(Fresh, Args(Some(path), reference), env).cache
        == Cache(Some(path), Some(ctx.root), Some(ctx.nv), Some(ctx.dataDir), Some(ctx.uc), Some(ctx.exportDir), None, None, None)
  {
    var args := Args(Some(path), reference);
    var c0 := Fresh.(recipeDir := Some(path));
    assert SetRecipeDir(Fresh, args) == c0;
    match RepoRoot(path, env.gitDirs)
    case None =>
      assert SetRootDir(Fresh, args, env) == Step(c0, Fail(NoRepositoryRoot));
    case Some(root) =>
      var c1 := c0.(rootDir := Some(root));
      assert SetRootDir(Fresh, args, env) == Step(c1, Pass);
      var nv := ResolveNameVersion(reference, Some(env.inspected)).value;
      DataDirFirst(c1, args, env);
      var c2 := c1.(nameAndVersion := Some(nv), dataDir := Some(DataDir(root, nv)));
      assert SetDataDir(c1, args, env) == Step(c2, Pass);
      ExportDirFirst(c2, args, env);
  }

  /**
   * From a new object, the five setters of `command_upload` fail exactly when
   * the one-pass derivation does, with the same error, and otherwise leave
   * every field but the recipe directory holding its coordinates.
   */
  lemma UploadStateMatchesContext(reference: string, env: Env)
    requires IsAbs(env.cwd)
    ensures UploadState(Fresh, Args(None, reference), env).outcome.Pass? <==> UploadContext(reference, env).Ok?
    ensures UploadContext(reference, env).Err? ==>
      UploadState(Fresh, Args(None, reference), env).outcome == Fail(UploadContext(reference, env).error)
    ensures UploadContext(reference, env).Ok? ==>
      var p := UploadContext(reference, env).value;
      UploadState(Fresh, Args(None, reference), env).cache
        == Cache(None, Some(p.exported.root), Some(p.exported.nv), Some(p.exported.dataDir), Some(p.exported.uc),
                 Some(p.exported.exportDir), Some(p.publishDir), Some(p.revision), Some(p.revisionDir))
  {
    var args := Args(None, reference);
    assert SetRecipeDir(Fresh, args) == Fresh;
    match RepoRoot(env.cwd, env.gitDirs)
    case None =>
      assert SetRootDir(Fresh, args, env) == Step(Fresh, Fail(NoRepositoryRoot));
    case Some(root) =>
      var c1 := Fresh.(rootDir := Some(root));
      assert SetRootDir(Fresh, args, env) == Step(c1, Pass);
      DataDirFirst(c1, args, env);
      match ResolveNameVersion(reference, None)
      case Err(e) =>
        assert SetExportDir(Fresh, args, env) == Step(c1, Fail(e));
      case Ok(nv) =>
        var c2 := c1.(nameAndVersion := Some(nv), dataDir := Some(DataDir(root, nv)));
        assert SetDataDir(Fresh, args, env) == Step(c2, Pass);
        ExportDirFirst(c2, args, env);
        match ParseUserChannel(reference)
        case Err(e) =>
          assert SetExportDir(Fresh, args, env) == Step(c2, Fail(e));
        case Ok(uc) =>
          var exportDir := ExportDir(DataDir(root, nv), uc);
          var c3 := c2.(userAndChannel := Some(uc), exportDir := Some(exportDir));
          assert SetExportDir(Fresh, args, env) == Step(c3, Pass);
          ExportedRevisionFrom(c3, args, env);
          if MetadataPath(exportDir) in env.revisions {
            var revision := env.revisions[MetadataPath(exportDir)];
            var c4 := c3.(exportedRevision := Some(revision));
            PublishDirFrom(c4, args, env);
            var publishDir := PublishDir(root, nv);
            var c5 := c4.(publishDir := Some(publishDir));
            PublishDirFrom(c5, args, env);
            ExportedRevisionFrom(c5, args, env);
            var c6 := c5.(revisionPubDir := Some(RevisionDir(publishDir, revision)));
            assert SetRevisionPubDir(c5, args, env) == Step(c6, Pass);
            RootDirCached(c6, args, env);
            assert SetNameAndVersion(c6, args, env) == Step(c6, Pass);
          }
  }
}

=== FILE: tool.dfy ===
/**
 * The `Barbarian` object of the current entry point: nine backing fields
 * filled lazily by property setters, and the `export` and `upload` commands
 * that drive them. Each setter method is proved to leave the object exactly
 * in the state the matching `State` function computes, so the properties
 * proved there (set-once caching, the layout, the coordinates a run settles
 * on) hold of the object.
 */
module Tool {
  import opened Common
  import opened PosixPath
  import opened GitRepo
  import opened Records
  import PyStr
  import Reference
  import Layout
  import State

  class Barbarian {
    var recipeDir: Option<string>
    var rootDir: Option<string>
    var nameAndVersion: Option<Reference.NameVersion>
    var dataDir: Option<string>
    var userAndChannel: Option<Reference.UserChannel>
    var exportDir: Option<string>
    var publishDir: Option<string>
    var exportedRevision: Option<string>
    var revisionPubDir: Option<string>

    /** The backing fields as a value. */
    function Fields(): State.Cache
      reads this
    {
      State.Cache(recipeDir, rootDir, nameAndVersion, dataDir, userAndChannel,
                  exportDir, publishDir, exportedRevision, revisionPubDir)
    }

    /** A new object has every backing field at None. */
    constructor()
      ensures Fields() == State.Fresh
    {
      recipeDir, rootDir, nameAndVersion, dataDir, userAndChannel := None, None, None, None, None;
      exportDir, publishDir, exportedRevision, revisionPubDir := None, None, None, None;
    }

    /** `recipe_dir = args`. */
    method SetRecipeDir(args: State.Args)
      modifies this
      ensures Fields() == State.SetRecipeDir(old(Fields()), args)
    {
      if !State.Truthy(recipeDir) && args.path.Some? {
        recipeDir := args.path;
      }
    }

    /**
     * `root_dir = args`: walks up from the recipe directory, or the working
     * directory, until a directory holding `.git`. Where the source would
     * loop forever at a directory that is its own parent, this reports
     * NoRepositoryRoot.
     */
    method SetRootDir(args: State.Args, env: State.Env) returns (outcome: Outcome)
      modifies this
      ensures State.Step(Fields(), outcome) == State.SetRootDir(old(Fields()), args, env)
    {
      SetRecipeDir(args);
      outcome := Pass;
      if !State.Truthy(rootDir) {
        var dir := if State.Truthy(recipeDir) then recipeDir.value else env.cwd;
        while !HasGit(env.gitDirs, dir)
          invariant RepoRoot(dir, env.gitDirs) == RepoRoot(State.SearchStart(Fields(), env), env.gitDirs)
          decreases |dir|
        {
          var parent := Parent(dir);
          if parent == dir {
            outcome := Fail(NoRepositoryRoot);
            return;
          }
          dir := parent;
        }
        rootDir := Some(dir);
      }
    }

    /** `recipe_name_and_version = args`: the reference's override of the inspected name and version. */
    method SetNameAndVersion(args: State.Args, env: State.Env) returns (outcome: Outcome)
      modifies this
      ensures State.Step(Fields(), outcome) == State.SetNameAndVersion(old(Fields()), args, env)
    {
      SetRecipeDir(args);
      outcome := SetRootDir(args, env);
      if outcome.Fail? || nameAndVersion.Some? {
        return;
      }
      var inspected := if State.Truthy(recipeDir) then Some(env.inspected) else None;
      match Reference.ResolveNameVersion(args.reference, inspected)
      case Err(e) =>
        outcome := Fail(e);
      case Ok(nv) =>
        nameAndVersion := Some(nv);
    }

    /** `recipe_data_dir = args`. */
    method SetDataDir(args: State.Args, env: State.Env) returns (outcome: Outcome)
      modifies this
      ensures State.Step(Fields(), outcome) == State.SetDataDir(old(Fields()), args, env)
    {
      outcome := SetRootDir(args, env);
      if outcome.Fail? {
        return;
      }
      outcome := SetNameAndVersion(args, env);
      if outcome.Fail? || State.Truthy(dataDir) {
        return;
      }
      dataDir := Some(Layout.DataDir(rootDir.value, nameAndVersion.value));
    }

    /** `recipe_user_and_channel = args`. */
    method SetUserAndChannel(args: State.Args) returns (outcome: Outcome)
      modifies this
      ensures State.Step(Fields(), outcome) == State.SetUserAndChannel(old(Fields()), args)
    {
      outcome := Pass;
      if userAndChannel.Some? {
        return;
      }
      match Reference.ParseUserChannel(args.reference)
      case Err(e) =>
        outcome := Fail(e);
      case Ok(uc) =>
        userAndChannel := Some(uc);
    }

    /** `recipe_export_dir = args`. */
    method SetExportDir(args: State.Args, env: State.Env) returns (outcome: Outcome)
      modifies this
      ensures State.Step(Fields(), outcome) == State.SetExportDir(old(Fields()), args, env)
    {
      outcome := SetDataDir(args, env);
      if outcome.Fail? {
        return;
      }
      outcome := SetUserAndChannel(args);
      if outcome.Fail? || State.Truthy(exportDir) {
        return;
      }
      exportDir := Some(Layout.ExportDir(dataDir.value, userAndChannel.value));
    }

    /** `recipe_publish_dir = args`. */
    method SetPublishDir(args: State.Args, env: State.Env) returns (outcome: Outcome)
      modifies this
      ensures State.Step(Fields(), outcome) == State.SetPublishDir(old(Fields()), args, env)
    {
      outcome := SetRootDir(args, env);
      if outcome.Fail? {
        return;
      }
      outcome := SetNameAndVersion(args, env);
      if outcome.Fail? || State.Truthy(publishDir) {
        return;
      }
      publishDir := Some(Layout.PublishDir(rootDir.value, nameAndVersion.value));
    }

    /** `recipe_exported_revision = args`: read from the export's `metadata.json`. */
    method SetExportedRevision(args: State.Args, env: State.Env) returns (outcome: Outcome)
      modifies this
      ensures State.Step(Fields(), outcome) == State.SetExportedRevision(old(Fields()), args, env)
    {
      outcome := SetExportDir(args, env);
      if outcome.Fail? || State.Truthy(exportedRevision) {
        return;
      }
      var metadata := Layout.MetadataPath(exportDir.value);
      if metadata in env.revisions {
        exportedRevision := Some(env.revisions[metadata]);
      } else {
        outcome := Fail(MissingMetadata);
      }
    }

    /** `recipe_revision_pub_dir = args`. */
    method SetRevisionPubDir(args: State.Args, env: State.Env) returns (outcome: Outcome)
      modifies this
      ensures State.Step(Fields(), outcome) == State.SetRevisionPubDir(old(Fields()), args, env)
    {
      outcome := SetPublishDir(args, env);
      if outcome.Fail? {
        return;
      }
      outcome := SetExportedRevision(args, env);
      if outcome.Fail? || State.Truthy(revisionPubDir) {
        return;
      }
      revisionPubDir := Some(Layout.RevisionDir(publishDir.value, exportedRevision.value));
    }

    /**
     * `command_export`. `pathArg` is the path argument as typed, which is
     * what `conan export` receives; `gitignore` is the content of the root's
     * `.gitignore`, or None when there is none.
     */
    method CommandExport(args: State.Args, env: State.Env, pathArg: string, gitignore: Option<string>)
      returns (actions: seq<Action>, outcome: Outcome)
      modifies this
      ensures State.Step(Fields(), outcome) == State.ExportState(old(Fields()), args, env)
      ensures outcome.Fail? ==> actions == []
      ensures outcome.Pass? ==>
        actions == [RemoveTree(dataDir.value)]
                   + GitignoreActions(Join(rootDir.value, ".gitignore"), gitignore)
                   + [ConanExport(rootDir.value, pathArg, args.reference)]
    {
      actions := [];
      outcome := SetRootDir(args, env);
      if outcome.Fail? {
        return;
      }
      outcome := SetDataDir(args, env);
      if outcome.Fail? {
        return;
      }
      outcome := SetExportDir(args, env);
      if outcome.Fail? {
        return;
      }
      actions := [RemoveTree(dataDir.value)]
                 + GitignoreActions(Join(rootDir.value, ".gitignore"), gitignore)
                 + [ConanExport(rootDir.value, pathArg, args.reference)];
    }

    /**
     * `command_upload`, from computing the state to the commit. `trees`
     * holds the contents of each existing directory, `now` the UTC time in
     * ISO format, and `md5` and `archive` stand for the digest and the
     * gzipped tar of one named file.
     */
    method CommandUpload(args: State.Args, env: State.Env, trees: map<string, Tree>, now: string,
                         md5: Bytes -> string, archive: (string, Bytes) -> Bytes)
      returns (actions: seq<Action>, outcome: Outcome)
      modifies this
      ensures var s := State.UploadState(old(Fields()), args, env);
        && Fields() == s.cache
        && (s.outcome.Fail? ==> actions == [] && outcome == s.outcome)
      ensures State.UploadState(old(Fields()), args, env).outcome.Pass? ==>
        var paths := PublishPathsFor(exportDir.value, publishDir.value, revisionPubDir.value);
        && (outcome.Pass? <==> paths.source in trees && Publishable(trees[paths.source]))
        && (paths.source !in trees ==> outcome == Fail(MissingExportDir))
        && (paths.source in trees && ConandataName !in trees[paths.source] ==> outcome == Fail(MissingFile(ConandataName)))
      ensures outcome.Pass? ==>
        var paths := PublishPathsFor(exportDir.value, publishDir.value, revisionPubDir.value);
        var source := trees[paths.source];
        var tgz := archive(ConandataName, source[ConandataName]);
        actions == [
          RemoveTree(revisionPubDir.value),
          MakeDirs(revisionPubDir.value),
          CopyTree(paths.source, paths.files),
          WriteArchive(paths.tgz, tgz),
          WriteJson(paths.snapshot, SnapshotJson(Snapshot(tgz, source[ManifestName], source[ConanfileName], md5))),
          WriteJson(paths.filesJson, FilesJson(ArtifactListing())),
          WriteJson(paths.latest, LatestJson(exportedRevision.value, now)),
          Commit(CommitMessage(nameAndVersion.value, exportedRevision.value))]
      ensures outcome.Fail? ==> forall i :: 0 <= i < |actions| ==> !actions[i].WriteJson? && !actions[i].Commit?
    {
      actions := [];
      outcome := SetExportDir(args, env);
      if outcome.Fail? {
        return;
      }
      outcome := SetExportedRevision(args, env);
      if outcome.Fail? {
        return;
      }
      outcome := SetPublishDir(args, env);
      if outcome.Fail? {
        return;
      }
      outcome := SetRevisionPubDir(args, env);
      if outcome.Fail? {
        return;
      }
      outcome := SetNameAndVersion(args, env);
      if outcome.Fail? {
        return;
      }
      var paths := PublishPathsFor(exportDir.value, publishDir.value, revisionPubDir.value);
      actions, outcome := Publish(paths, revisionPubDir.value, nameAndVersion.value, exportedRevision.value,
                                  trees, now, md5, archive);
    }
  }

  /** What the `.gitignore` tweak does to the file at `path`, in order. */
  function GitignoreActions(path: string, current: Option<string>): (r: seq<Action>)
    ensures |r| <= 2
    ensures Touch(path) in r <==> current.None?
    ensures (r != [] && r[|r| - 1].Save?) <==> !PyStr.Contains(Loaded(current), ConanIgnore)
    ensures r != [] && r[|r| - 1].Save? ==> r[|r| - 1] == Save(path, Tweaked(current))
  {
    var tweak := TweakGitignore(current);
    (if tweak.touched then [Touch(path)] else [])
    + (if tweak.saved.Some? then [Save(path, tweak.saved.value)] else [])
  }
}
